=== FILE: README.md ===
# License service: a Dafny model of its store and request handlers

The license service issues software license keys on behalf of brands. A brand
provisions a key for a customer email. The key carries one license per
product, and each license has a status (valid, suspended or cancelled) and an
expiry. Software instances activate the key against an instance id and can
deactivate it again. Anyone holding the key can check what it unlocks. A
brand can list every key for an email, and can suspend, resume, cancel or
renew a license.

This project models the service's store and its six request handlers
(licenses/views.py), the record rules of licenses/models.py and the
provisioning validator of licenses/serializers.py.

- **Records** (`Models`): brands, products, license keys, licenses and
  activations are datatypes. The store (`Store.State`) holds one sequence per
  table, and a row's id is its index.
- **Lookups** (`Query`): `filter(...).first()` is the matching row of lowest id
  (`First`). A query set in iteration order is the matching ids in increasing
  order (`Indices`).
- **Invariant** (`Store.Consistent`): the invariant every handler keeps. It
  covers:
  - every reference points to an existing row;
  - products are unique per (brand, code), and activations per (license,
    instance), as the storage constraints require;
  - keys are unique per (brand, email), and licenses per (key, product). No
    constraint enforces these; they hold only because provisioning finds
    before it creates;
  - key strings are unique, and every key carries the `lk_` prefix.
- **Handlers**: each handler is a function from the store before the request
  to the store after it and the outcome (`Provisioning`, `Activations`,
  `Reports`, `Lifecycle`). Failures are a `Result` datatype whose `Failure`
  values map to the HTTP codes 400, 403, 404 and 500 (`Outcomes.HttpStatus`).
  Lemmas beside each function state:
  - what each outcome means;
  - that a failure changes nothing;
  - that nothing outside the handler's rows changes;
  - that the invariant is kept;
  - that repeating Provision, Activate or Deactivate changes nothing further.
- **The service class** (`Views.LicenseService`): holds the tables as fields
  and updates them in place. Its methods run the handlers' own loops over
  products and licenses, and each is proved to produce exactly the store and
  reply that the handler function gives.

Time is a whole number of seconds since 1970-01-01T00:00:00 UTC, passed to
each handler as `now`, and a day is 86400 seconds. A renewal whose day count
or new expiry leaves what Python's `timedelta` and `datetime` can hold raises
`OverflowError`, which no handler catches: the model answers it as
`ExpiryOutOfRange` (500) and, as the atomic block rolls back, changes nothing. The random part of a generated key is a parameter `token`.
The authenticated brand is a parameter as well.

A cancelled license cannot be resumed, but `renew` sets any license back to
valid, a cancelled one included (`Lifecycle.RenewRevivesCancelled`).

## Model

| member | source | states |
|---|---|---|
| Models.GenerateApiKey | licenses/models.py:6-8 | a brand API key starts with `br_` and the rest of it is the random token |
| Models.GenerateKey | licenses/models.py:44-46 | a license key starts with `lk_` and the rest of it is the random token |
| Models.GenerateKeyInjective | licenses/models.py:44-46 | two tokens give the same key exactly when they are equal, so a fresh token gives an unused key |
| Models.StatusName | licenses/models.py:53-60 | the stored status is always one of `valid`, `suspended`, `cancelled` |
| Models.ParseStatus | licenses/models.py:53-60 | a text names a status exactly when it is one of the three choices, and it is then that status's stored text |
| Models.StatusNameRoundTrip | licenses/models.py:53-60 | reading back a stored status gives the same status |
| Models.IsActive | licenses/models.py:74-75 | a license is active when it is valid and its expiry is still ahead; its properties are stated by `Models.ActiveUntilExpiry` |
| Models.ActiveUntilExpiry | licenses/models.py:74-75 | an active license was also active at any earlier time, and is inactive at its own expiry instant (the comparison is strict) |
| Models.Revoke | licenses/models.py:92-94 | revocation sets `revoked_at` to now and leaves every other field as it was |
| Models.UniqueProducts | licenses/models.py:29-32 | the `uniq_brand_product_code` constraint: no two products share brand and code; relied on by `Serializers.ValidateExact` and kept by every handler through `Store.Consistent` |
| Models.UniqueActivations | licenses/models.py:84-87 | the `uniq_license_instance` constraint: no two activations share license and instance; kept by `Activations.ActivateAllSpec` and used by `Store.ActivationOfUnique` and `Reports.LiveInstancesExact` |
| Outcomes.HttpStatus | licenses/views.py:87-335 | every failure a handler checks for is answered 400, 403 or 404, and exactly the two uncaught errors (a taken key, an overflowing renewal) are answered 500; `ProvisionFailures`, `ActivateFailures`, `DeactivateOutcomes`, `CheckReport` and `ListByEmailReport` state each handler's codes through it |
| Query.First | licenses/views.py:85 | `.first()` yields an in-range row that matches, with no match at a lower id, and yields none exactly when no row matches |
| Query.Indices | licenses/views.py:198 | a query set lists only matching rows, lists every matching row, and lists them in increasing id order without repetition |
| Query.FirstAppend | licenses/views.py:47-54 | inserting a row leaves earlier `.first()` answers unchanged, and finds the new row only when nothing earlier matched |
| Query.FirstOfUnique | licenses/views.py:85 | a matching row is the `.first()` answer exactly when no earlier row matches |
| Serializers.BrandProducts | licenses/serializers.py:14 | the brand's products whose code is listed, in id order; characterised by `Query.Indices` and `Serializers.SelectedCodes` |
| Serializers.ValidateProductCodes | licenses/serializers.py:7-19 | an empty list fails; only the two validation failures occur; on success one product per code is returned, each of the calling brand with a listed code, in id order |
| Serializers.SelectedCodes | licenses/serializers.py:14 | the products the filter selects carry distinct codes, and those codes are exactly the listed codes that name a product of the brand |
| Serializers.SelectedDistinct | licenses/serializers.py:14 | under product uniqueness the selected products carry distinct codes |
| Serializers.SelectedCover | licenses/serializers.py:14 | the selected products' codes are exactly the listed codes naming a product of the brand |
| Serializers.ValidateExact | licenses/serializers.py:12-19 | with products unique per (brand, code), validation succeeds if and only if the list is non-empty, repeats no code and every code names a product of the calling brand |
| Serializers.RepeatedCodeRejected | licenses/serializers.py:14-17 | a list that repeats a code is rejected |
| Serializers.ForeignCodeRejected | licenses/serializers.py:13-17 | a code with no product of the calling brand, even one known under another brand, makes the whole list fail |
| Store.UniqueKeyOwners | licenses/views.py:39-43 | one key per (brand, email), which no constraint enforces and `get_or_create` keeps; part of `Store.Consistent`, kept by `Provisioning.KeyStepConsistent` |
| Store.UniqueKeyStrings | licenses/models.py:41 | the unique `key` column: no two keys share a string; part of `Store.Consistent` |
| Store.UniqueLicenses | licenses/views.py:47-54 | one license per (key, product), kept by `get_or_create`; part of `Store.Consistent`, kept by `Provisioning.ProvisionLicensesUnique` |
| Store.LicenseRefs | licenses/models.py:62-63 | a license refers to an existing key and an existing product of that key's brand; part of `Store.Consistent` |
| Store.Catalogue | licenses/models.py:24-32 | products refer to existing brands and are unique per (brand, code); part of `Store.Consistent` |
| Store.Consistent | licenses/models.py:24-87 | the invariant: every reference exists, the two storage constraints hold, keys are unique per (brand, email) and by string with the `lk_` prefix, licenses are unique per (key, product); kept by `ProvisionConsistent`, `ActivateConsistent`, `DeactivateConsistent` and `LifecycleConsistent` |
| Store.LiveFor | licenses/views.py:203-207 | a license has an unrevoked activation for an instance; used by `Reports.LiveInstancesExact` and `Activations.ActivateResult` |
| Store.KeyNamed | licenses/views.py:85 | `LicenseKey.objects.filter(key=...).first()`; characterised by `Query.First` |
| Store.KeyOfOwner | licenses/views.py:39-42 | the lookup half of `get_or_create(brand, customer_email)`; characterised by `Query.First` and `Provisioning.GetOrCreateKeySpec` |
| Store.KeyOfBrand | licenses/views.py:302 | the key lookup scoped to the caller's brand; characterised by `Query.First` and `Store.KeyOfBrandScoped` |
| Store.LicenseOf | licenses/views.py:47-49 | the lookup half of `get_or_create(license_key, product)`; characterised by `Query.First` and `Store.LicenseOfUnique` |
| Store.LicenseForCode | licenses/views.py:306 | the key's license for a product code, `.first()`; characterised by `Query.First` and `Activations.DeactivateOutcomes` |
| Store.ActivationOf | licenses/views.py:100-103 | the lookup half of `get_or_create(license, instance_id)`; characterised by `Query.First` and `Store.ActivationOfUnique` |
| Store.LiveActivationOf | licenses/views.py:151-155 | the unrevoked activation for (license, instance), `.first()`; characterised by `Query.First` and `Activations.DeactivateOutcomes` |
| Store.LicensesOfKey | licenses/views.py:198 | `lk.licenses.all()` in id order; characterised by `Query.Indices` and `Reports.CheckReport` |
| Store.ProductCode | licenses/views.py:65 | a license's `product.code`; stated by `Store.LicenseViews` |
| Store.BrandName | licenses/views.py:61 | the caller brand's `name`; stated by `Provisioning.ProvisionKey` and `Lifecycle.LifecycleUpdate` |
| Store.LicenseViews | licenses/views.py:63-70 | the reply lists one entry per license, in order, with that license's product code, status and expiry |
| Store.ActivationOfUnique | licenses/models.py:84-87 | with one activation per (license, instance), the lookup of the pair names the one row holding it |
| Store.LicenseOfUnique | licenses/views.py:47-54 | with one license per (key, product), the lookup of the pair names the one row holding it |
| Store.KeyOfBrandScoped | licenses/views.py:302-304 | the brand-scoped key lookup finds the key exactly when the key string exists and belongs to that brand |
| Store.LicenseUpdateConsistent | licenses/views.py:312-333 | rewriting one license's status and expiry in place keeps the store consistent |
| Provisioning.Provision | licenses/views.py:27-73 | the provisioning handler; its outcomes are stated by `ProvisionFailures`, `ProvisionKey` and `ProvisionLicensesResult`, its invariant by `ProvisionConsistent` and its repetition by `ProvisionIdempotent` |
| Provisioning.GetOrCreateKey | licenses/views.py:39-43 | the find-or-create of the customer's key; stated by `GetOrCreateKeySpec` and `KeyStepConsistent` |
| Provisioning.GetOrCreateLicense | licenses/views.py:47-54 | the find-or-create of one license; stated by `GetOrCreateLicenseSpec` |
| Provisioning.ProvisionLicenses | licenses/views.py:45-56 | the loop over the validated products; stated by `ProvisionLicensesKeeps`, `ProvisionLicensesCovers`, `ProvisionLicensesIdle` and `ProvisionLicensesUnique` |
| Provisioning.NewLicense | licenses/views.py:50-53 | a created license is valid until now + 365 days; stated by `ProvisionLicensesKeeps` and `ProvisionLicensesResult` |
| Provisioning.GetOrCreateLicenseSpec | licenses/views.py:47-56 | an existing license is returned and nothing changes; otherwise exactly one new license is appended; afterwards the pair's lookup names the returned license, and earlier lookups are unchanged |
| Provisioning.ProvisionLicensesKeeps | licenses/views.py:46-56 | the provisioning loop keeps every existing license unchanged; each added license is a new valid one-year license of a listed product that had none |
| Provisioning.ProvisionLicensesCovers | licenses/views.py:45-56 | after the loop every listed product has a license under the key, and the collected licenses are, product by product, the ones the lookup names |
| Provisioning.ProvisionLicensesIdle | licenses/views.py:47-55 | when every listed product already has a license the loop changes nothing |
| Provisioning.ProvisionLicensesUnique | licenses/views.py:46-54 | the loop keeps licenses unique per (key, product) |
| Provisioning.GetOrCreateKeySpec | licenses/views.py:39-43 | an existing key for (brand, email) is reused and nothing changes; otherwise one new key with the generated string is appended; only the key table changes |
| Provisioning.ProvisionFailures | licenses/views.py:30-43 | provisioning fails exactly on a blank email, a failed validation or a taken generated key; a blank email gives `InvalidEmail`, a failed validation its own failure (both 400), and the collision `KeyCollision` (500) exactly when the email and codes are good, the customer has no key and the generated string is taken; a failure changes nothing |
| Provisioning.ProvisionKey | licenses/views.py:39-62 | the reply names the calling brand; the reply's key is the customer's existing key for the brand, or else the newly generated one (then the only key added); the reply's email is the request's |
| Provisioning.ProvisionLicensesResult | licenses/views.py:45-70 | brands, products and activations are untouched, and so are existing licenses; new ones are valid, expire at now + 365 days and belong to the key and a listed product; the reply lists one entry per code, each with its product's code and the stored status and expiry |
| Provisioning.ProvisionConsistent | licenses/views.py:27-73 | provisioning keeps the store consistent, including one key per (brand, email) and one license per (key, product) |
| Provisioning.KeyStepConsistent | licenses/views.py:39-43 | the key step keeps the store consistent and yields a key of the calling brand |
| Provisioning.LicenseStepConsistent | licenses/views.py:45-56 | the license loop over products of the key's brand keeps the store consistent |
| Provisioning.ProvisionIdempotent | licenses/views.py:39-56 | repeating a successful provisioning, at any later time and with any token, changes nothing and gives the same reply |
| Activations.Activate | licenses/views.py:81-119 | the activation handler; its outcomes are stated by `ActivateFailures` and `ActivateResult`, its invariant by `ActivateConsistent` and its repetition by `ActivateIdempotent` |
| Activations.Deactivate | licenses/views.py:127-182 | the deactivation handler; its outcomes are stated by `DeactivateOutcomes`, its invariant by `DeactivateConsistent` and its repetition by `DeactivateIdempotent` |
| Activations.ActiveLicensesOfKey | licenses/views.py:90-93 | the key's active licenses in id order; characterised by `Query.Indices`, with its emptiness giving 403 in `ActivateFailures` |
| Activations.ActivatedViews | licenses/views.py:110 | one reply entry per activated license with its product code and the instance; stated by `ActivateResult` |
| Activations.ActivateOne | licenses/views.py:100-108 | one step of the activation loop; stated by `ActivateOneSpec` |
| Activations.ActivateAll | licenses/views.py:97-110 | the activation loop over the active licenses; stated by `ActivateAllSpec` and `ActivateAllIdle` |
| Activations.ActivateOneSpec | licenses/views.py:100-108 | one step makes the (license, instance) activation live, by creating it or clearing its revocation; no other row changes and uniqueness is kept |
| Activations.ActivateAllSpec | licenses/views.py:99-110 | after the loop each listed license has a live activation for the instance; an old row changes only by losing its revocation; each added row is a live activation of a listed license; uniqueness is kept |
| Activations.ActivateAllIdle | licenses/views.py:99-108 | when every listed license is already live for the instance the loop changes nothing |
| Activations.ActivateFailures | licenses/views.py:82-95 | 400 exactly on a blank field, 404 exactly on an unknown key, 403 exactly when the key has no active license, and no other failure, so a non-blank request on a key with an active license succeeds; a failure changes nothing, and activation never changes anything but activations; the codes are 400, 404 and 403 in that order |
| Activations.ActivateResult | licenses/views.py:90-117 | every active license under the key ends live for the instance with a single row; revoked rows are revived rather than duplicated; inactive licenses and other instances gain nothing; the reply carries the key and its customer email and lists the activated licenses |
| Activations.ActivateConsistent | licenses/views.py:81-119 | activation keeps the store consistent |
| Activations.ActivationsConsistent | licenses/models.py:84-87 | replacing the activation table by one that is unique per (license, instance) and refers to existing licenses keeps the store consistent |
| Activations.ActivateIdempotent | licenses/views.py:99-108 | activating again, at the same or a later time, changes nothing further |
| Activations.DeactivateOutcomes | licenses/views.py:127-182 | 400 exactly on a blank field, 404 exactly on an unknown key or product, and no other failure; on success the reply carries the key, product and instance, and says deactivated exactly when a live activation exists; with none it changes nothing; otherwise it revokes exactly that row at now, leaving every other table and every other activation alone; the codes are 400 and 404 |
| Activations.DeactivateConsistent | licenses/views.py:151-171 | deactivation keeps the store consistent |
| Activations.DeactivateIdempotent | licenses/views.py:151-168 | deactivating again changes nothing and answers not deactivated |
| Reports.Check | licenses/views.py:189-228 | the check handler; stated by `CheckReport`, `ActivateThenCheck` and `DeactivateThenCheck` |
| Reports.ListByEmail | licenses/views.py:240-267 | the listing handler; stated by `ListByEmailReport` |
| Reports.LiveInstances | licenses/views.py:202-207 | the instance ids of a license's unrevoked activations; characterised by `Reports.LiveInstancesExact` |
| Reports.CheckOf | licenses/views.py:201-219 | the report of one license; stated by `Reports.CheckReport` |
| Reports.KeysOfEmail | licenses/views.py:245-247 | the keys with an email, of any brand, in id order; characterised by `Query.Indices` and `Reports.ListByEmailReport` |
| Reports.KeyListingOf | licenses/views.py:253-265 | the listing of one key; stated by `Reports.ListByEmailReport` |
| Reports.LiveInstancesExact | licenses/views.py:202-207 | the reported instances are exactly those with an unrevoked activation of the license, each listed once |
| Reports.CheckReport | licenses/views.py:189-228 | 400 exactly on a blank key and 404 exactly on an unknown one, and no other failure, so a known key is always reported; the reply carries the key, its brand's name and its customer email, and every license under the key is reported in id order with its product, status and expiry; `is_active` holds iff it is valid and unexpired; `active_instances` lists exactly the live instances; `is_activated` holds iff that list is non-empty; the codes are 400 and 404 |
| Reports.ListByEmailReport | licenses/views.py:240-267 | a blank email, and nothing else, gives `MissingFields` (400); otherwise the reply echoes the email and lists every key with that email, of any brand, with its brand name, key string and every license of the key in id order, each with its product code, status and expiry |
| Reports.ActivateThenCheck | licenses/views.py:90-110 | after an activation, Check reports the instance on every license that was active under the key |
| Reports.DeactivateThenCheck | licenses/views.py:170-171 | after a deactivation, Check no longer reports the instance on that license |
| Lifecycle.IsSpace | licenses/views.py:310 | exactly the characters `str.strip()` removes; used by `StripLeft`, `StripRight` and `ActionWordPadded` |
| Lifecycle.Lower | licenses/views.py:310 | each upper-case ASCII letter becomes its lower-case letter, every other character stays, and the length is kept |
| Lifecycle.StripLeft | licenses/views.py:310 | the result is a suffix of the input that does not start with white space, and everything dropped in front of it is white space |
| Lifecycle.StripRight | licenses/views.py:310 | the result is a prefix of the input that does not end with white space, and everything dropped behind it is white space |
| Lifecycle.NormalizeAction | licenses/views.py:310 | the normalised action has no upper-case letter and neither starts nor ends with white space |
| Lifecycle.LowerAppend | licenses/views.py:310 | lower-casing a concatenation lower-cases each part |
| Lifecycle.LowerIdle | licenses/views.py:310 | a string with no upper-case letter is its own lower-case form |
| Lifecycle.StripLeftPadding | licenses/views.py:310 | stripping removes exactly a white-space prefix in front of a string that does not start with white space |
| Lifecycle.StripRightPadding | licenses/views.py:310 | stripping removes exactly a white-space suffix behind a string that does not end with white space |
| Lifecycle.LowerPadded | licenses/views.py:310 | lower-casing leaves white-space padding as it is |
| Lifecycle.NormalizePadded | licenses/views.py:310 | a word padded with white space normalises to the lower-cased word |
| Lifecycle.ActionWordPadded | licenses/views.py:310-323 | an action word in any case, with any white space around it, normalises to the word and so reaches its branch |
| Lifecycle.ActionWordsNormal | licenses/views.py:310-323 | each of suspend, resume, cancel and renew is its own normal form |
| Lifecycle.RenewedExpiry | licenses/views.py:329-331 | the renewed expiry, counted from the current expiry when that is ahead and from now otherwise; stated by `TransitionTable` and `RenewActivates` |
| Lifecycle.Renew | licenses/views.py:323-333 | the renew branch, with its two overflow failures; stated by `TransitionTable` |
| Lifecycle.TransitionTable | licenses/views.py:312-335 | suspend and cancel set their status; resume sets valid unless cancelled; renew sets valid and expiry max(expiry, now) + days (365 by default), rejects a non-integer day count, and fails with an overflow exactly when the day count exceeds 999999999 either way or the new expiry leaves years 1 to 9999; other actions are rejected; only status and expiry ever change |
| Lifecycle.ResumeCancelledIsNoop | licenses/views.py:315-319 | resuming a cancelled license leaves it exactly as it was |
| Lifecycle.RenewActivates | licenses/views.py:323-333 | renewing by a positive number of days, within the datetime range, leaves the license active and moves its expiry forward |
| Lifecycle.RenewRevivesCancelled | licenses/views.py:323-333 | renewal ignores the status: a cancelled license renews exactly as a valid one does and, on success, becomes valid |
| Lifecycle.Transition | licenses/views.py:312-335 | an action fails only as an unknown action, a non-integer day count or an out-of-range renewal, and never moves a license to another key or product |
| Lifecycle.Lifecycle | licenses/views.py:279-346 | the lifecycle handler; stated by `LifecycleOutcomes`, `LifecycleDispatch`, `LifecycleUpdate`, `LifecycleOtherBrand` and `LifecycleConsistent` |
| Lifecycle.LifecycleOutcomes | licenses/views.py:289-308 | 400 exactly on a blank field; 404 (key not found) exactly when no key with that string belongs to the caller brand; 404 (license not found) exactly when that key has no license for the product code; a failure changes nothing |
| Lifecycle.LifecycleUpdate | licenses/views.py:310-346 | a success replaces only that one license by its transition and reports the key, the caller brand's name, the product code and the new status and expiry; keys, products and activations stay, so suspending or cancelling revokes no activation |
| Lifecycle.LifecycleDispatch | licenses/views.py:310-335 | once the key and the license are found, the request succeeds exactly when the action's transition does, and otherwise answers the transition's failure and changes nothing |
| Lifecycle.LifecycleOtherBrand | licenses/views.py:302-304 | a key of another brand is answered with 404 and nothing changes |
| Lifecycle.LifecycleConsistent | licenses/views.py:279-346 | the lifecycle handler keeps the store consistent |
| Views.LicenseService.constructor | licenses/models.py:24-32 | a service starts from a consistent catalogue of brands and products, with no keys, licenses or activations |
| Views.LicenseService.GetOrCreateKey | licenses/views.py:39-43 | the find-or-create on keys leaves the tables and yields the key id, or the collision failure, exactly as the key step of provisioning says |
| Views.LicenseService.ProvisionLicenses | licenses/views.py:45-56 | the loop over products leaves the license table and the collected licenses exactly as the provisioning loop says, touching no other table |
| Views.LicenseService.Provision | licenses/views.py:27-73 | the handler leaves the store and answers exactly as `Provisioning.Provision`, and keeps the invariant |
| Views.LicenseService.ActivateOne | licenses/views.py:100-108 | one loop step changes only the activation table, exactly as the single activation step says |
| Views.LicenseService.ActivateAll | licenses/views.py:97-110 | the loop over active licenses leaves the activations, and builds the reply list, exactly as the activation loop says |
| Views.LicenseService.Activate | licenses/views.py:81-119 | the handler leaves the store and answers exactly as `Activations.Activate`, and keeps the invariant |
| Views.LicenseService.Deactivate | licenses/views.py:127-182 | the handler leaves the store and answers exactly as `Activations.Deactivate`, and keeps the invariant |
| Views.LicenseService.Check | licenses/views.py:189-228 | the read-only loop builds exactly the report of `Reports.Check` |
| Views.LicenseService.ListByEmail | licenses/views.py:240-267 | the read-only loop builds exactly the listing of `Reports.ListByEmail` |
| Views.LicenseService.ApplyAction | licenses/views.py:310-335 | the action branch answers with the license's transition, or the failure, and stores the new license only on success |
| Views.LicenseService.Lifecycle | licenses/views.py:279-346 | the handler leaves the store and answers exactly as `Lifecycle.Lifecycle`, and keeps the invariant |

## Left out

- HTTP and serialisation: DRF responses, the `detail` messages and `isoformat()` are not modelled. A reply is a datatype, and a failure is a `Failure` value with its status code.
- Authentication (licenses/auth.py, licenses/permissions.py): the caller's brand is a parameter. `Views.LicenseService.Provision` requires that brand to exist, as the authentication layer guarantees.
- Routing and admin: license_service/urls.py, licenses/urls.py and licenses/admin.py are not part of this model. Brands and products are created only there, so the service starts from a given catalogue.
- Brand name and API key uniqueness (licenses/models.py:12-18) are not modelled. No handler creates brands.
- Transactions and concurrency: `transaction.atomic` and races between concurrent `get_or_create` calls are not modelled; the model runs one request at a time. Activate runs outside a transaction, which matters only under concurrency.
- Randomness: `secrets.token_hex` and `secrets.token_urlsafe` become the `token` parameter. A generated key string that is already taken yields `KeyCollision`, standing for the storage error the unique column raises.
- Time: timezone-aware datetimes and `timedelta` become whole seconds since the Unix epoch; microseconds are not modelled. The several reads of the clock within one request are one `now`. Creation timestamps are set to `now`.
- Provisioning.NewLicense: the clock is taken to read before the last year of the datetime range, so `now + 365 days` at provisioning never raises `OverflowError`.
- Request fields: an absent or null field is the empty string, and every field is a string. CharField's trimming of surrounding white space is not modelled.
- Email validation: EmailField's format check is not modelled; only a blank email is rejected (`InvalidEmail`).
- `extend_days`: it is absent, an integer, or not an integer. `int()` truncating a float and the uncaught `TypeError` for other types are not modelled.
- Lifecycle.Lower: only ASCII letters are lower-cased; the Unicode case mapping of `str.lower()` for other letters is not modelled. It cannot change which branch runs: the only non-ASCII character whose lower-case form is ASCII is U+212A KELVIN SIGN (to `k`), and no action word contains a `k`. Stripping (`IsSpace`) covers every character `str.strip()` removes.
- Lifecycle.Lifecycle: a license always has an expiry, as the column is not nullable, so the null-expiry branches of renew and of the reply do not arise.
- Query order: query sets carry no ordering, and the model reads them in id order. This applies to `.first()`, to the products validation returns (so Provision's reply follows product id order, not the order of the codes) and to the licenses and keys the reports list.
- Activation.revoke: it is modelled as the function `Models.Revoke` on a row. The deactivation handler performs the same assignment inline rather than calling the method.

=== FILE: activations.dfy ===
/** Activation and deactivation of an instance (ActivateLicenseView.post and
    DeactivateLicenseView.post), stated as functions from the store before the
    request to the store after it and the outcome. */
module Activations {
  import opened Models
  import opened Outcomes
  import opened Query
  import opened Store

  datatype ActivationView = ActivationView(product: string, instanceId: string)
  datatype ActivateReply = ActivateReply(key: string, email: string, activated: seq<ActivationView>)
  datatype DeactivateReply = DeactivateReply(key: string, product: string, instanceId: string, deactivated: bool, revokedAt: Option<int>)

  /** The active licenses under a key, in id order. */
  function ActiveLicensesOfKey(ls: seq<License>, kid: nat, now: int): seq<nat>
  {
    Indices(ls, (l: License) => l.keyId == kid && IsActive(l, now))
  }

  /** `Activation.objects.get_or_create(license, instance_id)` followed by
      clearing a revocation the row may carry. */
  function ActivateOne(acts: seq<Activation>, lid: nat, inst: string, now: int): seq<Activation>
  {
    match ActivationOf(acts, lid, inst)
    case None => acts + [Activation(lid, inst, now, None)]
    case Some(i) => if acts[i].revokedAt.Some? then acts[i := acts[i].(revokedAt := None)] else acts
  }

  /** The activation loop over the active licenses, in order. */
  function ActivateAll(acts: seq<Activation>, lids: seq<nat>, inst: string, now: int): seq<Activation>
    decreases |lids|
  {
    if lids == [] then acts
    else ActivateOne(ActivateAll(acts, lids[..|lids| - 1], inst, now), lids[|lids| - 1], inst, now)
  }

  /** The reply entry of each activated license. */
  function ActivatedViews(s: State, lids: seq<nat>, inst: string): seq<ActivationView>
  {
    seq(|lids|, k requires 0 <= k < |lids| =>
      ActivationView(if lids[k] < |s.licenses| then ProductCode(s.products, s.licenses[lids[k]].productId) else "", inst))
  }

  /** The Activate handler. */
  function Activate(s: State, key: string, inst: string, now: int): (State, Result<ActivateReply>)
  {
    if key == "" || inst == "" then (s, Fail(MissingFields))
    else
      match KeyNamed(s.keys, key)
      case None => (s, Fail(KeyNotFound))
      case Some(kid) =>
        var lids := ActiveLicensesOfKey(s.licenses, kid, now);
        if lids == [] then (s, Fail(NoActiveLicenses))
        else
          (s.(activations := ActivateAll(s.activations, lids, inst, now)),
           Ok(ActivateReply(s.keys[kid].key, s.keys[kid].email, ActivatedViews(s, lids, inst))))
  }

  /** The Deactivate handler. */
  function Deactivate(s: State, key: string, code: string, inst: string, now: int): (State, Result<DeactivateReply>)
  {
    if key == "" || code == "" || inst == "" then (s, Fail(MissingFields))
    else
      match KeyNamed(s.keys, key)
      case None => (s, Fail(KeyNotFound))
      case Some(kid) =>
        match LicenseForCode(s.licenses, s.products, kid, code)
        case None => (s, Fail(LicenseNotFound))
        case Some(lid) =>
          match LiveActivationOf(s.activations, lid, inst)
          case None => (s, Ok(DeactivateReply(s.keys[kid].key, code, inst, false, None)))
          case Some(a) =>
            (s.(activations := s.activations[a := Revoke(s.activations[a], now)]),
             Ok(DeactivateReply(s.keys[kid].key, code, inst, true, Some(now))))
  }

  // ---------------------------------------------------------------------------
  // The activation loop

  /** One activation step: the row for (license, instance) is made live, by
      creating it or by clearing its revocation, and no other row changes. */
  lemma ActivateOneSpec(acts: seq<Activation>, lid: nat, inst: string, now: int)
    requires UniqueActivations(acts)
    ensures var acts' := ActivateOne(acts, lid, inst, now);
      && UniqueActivations(acts')
      && LiveFor(acts', lid, inst)
      && |acts| <= |acts'| <= |acts| + 1
      && (forall k :: 0 <= k < |acts| ==>
            acts'[k] == if acts[k].licenseId == lid && acts[k].instanceId == inst then acts[k].(revokedAt := None) else acts[k])
      && (|acts'| == |acts| + 1 ==> acts'[|acts|] == Activation(lid, inst, now, None))
  {
    var acts' := ActivateOne(acts, lid, inst, now);
    match ActivationOf(acts, lid, inst)
    case None =>
      assert acts'[|acts|].licenseId == lid;
    case Some(i) =>
      assert acts'[i].licenseId == lid;
      forall k | 0 <= k < |acts| && acts[k].licenseId == lid && acts[k].instanceId == inst
        ensures k == i
      {
      }
  }

  /** The whole loop: each listed license ends with a live activation for the
      instance; an old row changes only when it belongs to a listed license and
      the instance, and then only by losing its revocation; every added row is a
      fresh live activation of a listed license; uniqueness is kept. */
  lemma {:induction false} ActivateAllSpec(acts: seq<Activation>, lids: seq<nat>, inst: string, now: int)
    requires UniqueActivations(acts)
    ensures var acts' := ActivateAll(acts, lids, inst, now);
      && UniqueActivations(acts')
      && (forall l :: l in lids ==> LiveFor(acts', l, inst))
      && |acts| <= |acts'|
      && (forall k :: 0 <= k < |acts| ==>
            acts'[k] == if acts[k].licenseId in lids && acts[k].instanceId == inst then acts[k].(revokedAt := None) else acts[k])
      && (forall k :: |acts| <= k < |acts'| ==>
            acts'[k].licenseId in lids && acts'[k] == Activation(acts'[k].licenseId, inst, now, None))
    decreases |lids|
  {
    if lids != [] {
      var init := lids[..|lids| - 1];
      var l := lids[|lids| - 1];
      ActivateAllSpec(acts, init, inst, now);
      var acts1 := ActivateAll(acts, init, inst, now);
      ActivateOneSpec(acts1, l, inst, now);
      var acts2 := ActivateOne(acts1, l, inst, now);
      assert acts2 == ActivateAll(acts, lids, inst, now);
      forall l' | l' in lids
        ensures LiveFor(acts2, l', inst)
      {
        if l' != l {
          assert l' in init;
          var i :| 0 <= i < |acts1| && acts1[i].licenseId == l' && acts1[i].instanceId == inst && acts1[i].revokedAt.None?;
          assert acts2[i] == acts1[i];
        }
      }
      forall k | 0 <= k < |acts|
        ensures acts2[k] == if acts[k].licenseId in lids && acts[k].instanceId == inst then acts[k].(revokedAt := None) else acts[k]
      {
        assert acts1[k].licenseId == acts[k].licenseId && acts1[k].instanceId == acts[k].instanceId;
      }
    }
  }

  /** When every listed license already has a live activation for the
      instance, the loop changes nothing. */
  lemma {:induction false} ActivateAllIdle(acts: seq<Activation>, lids: seq<nat>, inst: string, now: int)
    requires UniqueActivations(acts)
    requires forall l :: l in lids ==> LiveFor(acts, l, inst)
    ensures ActivateAll(acts, lids, inst, now) == acts
    decreases |lids|
  {
    if lids != [] {
      ActivateAllIdle(acts, lids[..|lids| - 1], inst, now);
      var l := lids[|lids| - 1];
      assert LiveFor(acts, l, inst);
      var i :| 0 <= i < |acts| && acts[i].licenseId == l && acts[i].instanceId == inst && acts[i].revokedAt.None?;
      ActivationOfUnique(acts, l, inst, i);
    }
  }

  // ---------------------------------------------------------------------------
  // Properties of Activate

  /** Activate fails exactly on a blank field, an unknown key, or a key with no
      active license, and then changes nothing. Otherwise only activations change. */
  lemma ActivateFailures(s: State, key: string, inst: string, now: int)
    ensures var (s', r) := Activate(s, key, inst, now);
      && (r.Fail? ==> s' == s)
      && (r == Fail(MissingFields) <==> key == "" || inst == "")
      && (r == Fail(KeyNotFound) <==> key != "" && inst != "" && KeyNamed(s.keys, key).None?)
      && (r == Fail(NoActiveLicenses) <==>
            key != "" && inst != "" && KeyNamed(s.keys, key).Some? &&
            forall i :: 0 <= i < |s.licenses| ==> !(s.licenses[i].keyId == KeyNamed(s.keys, key).value && IsActive(s.licenses[i], now)))
      && (r.Fail? ==> r.failure in {MissingFields, KeyNotFound, NoActiveLicenses})
      && (r.Fail? ==>
            HttpStatus(r.failure) == if key == "" || inst == "" then 400 else if KeyNamed(s.keys, key).None? then 404 else 403)
      && s' == s.(activations := s'.activations)
  {
    if key != "" && inst != "" && KeyNamed(s.keys, key).Some? {
      var kid := KeyNamed(s.keys, key).value;
      var lids := ActiveLicensesOfKey(s.licenses, kid, now);
      if lids != [] {
        assert lids[0] < |s.licenses| && s.licenses[lids[0]].keyId == kid && IsActive(s.licenses[lids[0]], now);
      }
    }
  }

  /** After a successful Activate, every active license under the key has
      exactly one activation for the instance and it is live; a revoked row
      has been un-revoked rather than duplicated. No activation of an inactive
      license, of another key or of another instance changes, and every new row
      is a live activation of an active license under the key. The reply lists
      the active licenses' products. */
  lemma ActivateResult(s: State, key: string, inst: string, now: int)
    requires Consistent(s)
    requires Activate(s, key, inst, now).1.Ok?
    ensures var (s', r) := Activate(s, key, inst, now);
      var kid := KeyNamed(s.keys, key).value;
      var hit := (lid: nat) => lid < |s.licenses| && s.licenses[lid].keyId == kid && IsActive(s.licenses[lid], now);
      && (forall lid :: hit(lid) ==> LiveFor(s'.activations, lid, inst))
      && UniqueActivations(s'.activations)
      && |s.activations| <= |s'.activations|
      && (forall k :: 0 <= k < |s.activations| ==>
            s'.activations[k] ==
              if hit(s.activations[k].licenseId) && s.activations[k].instanceId == inst
              then s.activations[k].(revokedAt := None) else s.activations[k])
      && (forall k :: |s.activations| <= k < |s'.activations| ==>
            hit(s'.activations[k].licenseId) && s'.activations[k] == Activation(s'.activations[k].licenseId, inst, now, None))
      && r.value.key == key && r.value.email == s.keys[kid].email
      && r.value.activated == ActivatedViews(s, ActiveLicensesOfKey(s.licenses, kid, now), inst)
  {
    var kid := KeyNamed(s.keys, key).value;
    var lids := ActiveLicensesOfKey(s.licenses, kid, now);
    ActivateAllSpec(s.activations, lids, inst, now);
  }

  /** Activate keeps the store consistent. */
  lemma ActivateConsistent(s: State, key: string, inst: string, now: int)
    requires Consistent(s)
    ensures Consistent(Activate(s, key, inst, now).0)
  {
    var (s', r) := Activate(s, key, inst, now);
    if r.Ok? {
      var kid := KeyNamed(s.keys, key).value;
      var lids := ActiveLicensesOfKey(s.licenses, kid, now);
      var acts' := ActivateAll(s.activations, lids, inst, now);
      ActivateAllSpec(s.activations, lids, inst, now);
      forall k | 0 <= k < |acts'|
        ensures acts'[k].licenseId < |s.licenses|
      {
        if k < |s.activations| {
          assert acts'[k].licenseId == s.activations[k].licenseId;
        } else {
          var j :| 0 <= j < |lids| && lids[j] == acts'[k].licenseId;
        }
      }
      ActivationsConsistent(s, acts');
    }
  }

  /** Replacing the activation table keeps the store consistent when the new
      table refers to existing licenses and is unique per (license, instance). */
  lemma ActivationsConsistent(s: State, acts: seq<Activation>)
    requires Consistent(s)
    requires UniqueActivations(acts)
    requires forall k :: 0 <= k < |acts| ==> acts[k].licenseId < |s.licenses|
    ensures Consistent(s.(activations := acts))
  {
    var s' := s.(activations := acts);
    assert forall i :: 0 <= i < |s.licenses| ==> LicenseRefs(s, s.licenses[i]) == LicenseRefs(s', s'.licenses[i]);
  }

  /** Activate is idempotent: repeating a successful activation, now or later,
      changes nothing (licenses active later were active before, and each
      already holds its live activation). */
  lemma ActivateIdempotent(s: State, key: string, inst: string, now: int, now2: int)
    requires Consistent(s)
    requires Activate(s, key, inst, now).1.Ok?
    requires now <= now2
    ensures var s1 := Activate(s, key, inst, now).0;
      Activate(s1, key, inst, now2).0 == s1
  {
    var s1 := Activate(s, key, inst, now).0;
    var kid := KeyNamed(s.keys, key).value;
    var lids := ActiveLicensesOfKey(s.licenses, kid, now);
    ActivateAllSpec(s.activations, lids, inst, now);
    var lids2 := ActiveLicensesOfKey(s1.licenses, kid, now2);
    forall l | l in lids2
      ensures LiveFor(s1.activations, l, inst)
    {
      ActiveUntilExpiry(s.licenses[l], now, now2);
      assert l in lids;
    }
    if lids2 != [] {
      ActivateAllIdle(s1.activations, lids2, inst, now2);
    }
  }

  // ---------------------------------------------------------------------------
  // Properties of Deactivate

  /** Deactivate answers 400 on a blank field and 404 on an unknown key or a
      key without a license for the product, changing nothing. When the
      license has no live activation for the instance it reports
      `deactivated = false` and changes nothing. Otherwise it revokes exactly
      that activation at `now`; licenses and every other activation stay. */
  lemma DeactivateOutcomes(s: State, key: string, code: string, inst: string, now: int)
    ensures var (s', r) := Deactivate(s, key, code, inst, now);
      && (r == Fail(MissingFields) <==> key == "" || code == "" || inst == "")
      && (r == Fail(KeyNotFound) <==> key != "" && code != "" && inst != "" && KeyNamed(s.keys, key).None?)
      && (r == Fail(LicenseNotFound) <==>
            key != "" && code != "" && inst != "" && KeyNamed(s.keys, key).Some? &&
            LicenseForCode(s.licenses, s.products, KeyNamed(s.keys, key).value, code).None?)
      && (r.Fail? ==> r.failure in {MissingFields, KeyNotFound, LicenseNotFound})
      && (r.Fail? ==> HttpStatus(r.failure) == if key == "" || code == "" || inst == "" then 400 else 404)
      && (r.Fail? || !r.value.deactivated ==> s' == s)
      && (r.Ok? ==> r.value.key == key && r.value.product == code && r.value.instanceId == inst)
      && (r.Ok? ==>
            (r.value.deactivated <==>
               LiveActivationOf(s.activations, LicenseForCode(s.licenses, s.products, KeyNamed(s.keys, key).value, code).value, inst).Some?))
      && (r.Ok? && !r.value.deactivated ==>
            LiveActivationOf(s.activations, LicenseForCode(s.licenses, s.products, KeyNamed(s.keys, key).value, code).value, inst).None? &&
            r.value.revokedAt.None?)
      && (r.Ok? && r.value.deactivated ==>
            var a := LiveActivationOf(s.activations, LicenseForCode(s.licenses, s.products, KeyNamed(s.keys, key).value, code).value, inst).value;
            && a < |s.activations|
            && s' == s.(activations := s'.activations)
            && s.activations[a].revokedAt.None?
            && s'.activations == s.activations[a := Revoke(s.activations[a], now)]
            && r.value.revokedAt == Some(now))
  {
  }

  /** Deactivate keeps the store consistent. */
  lemma DeactivateConsistent(s: State, key: string, code: string, inst: string, now: int)
    requires Consistent(s)
    ensures Consistent(Deactivate(s, key, code, inst, now).0)
  {
    var (s', r) := Deactivate(s, key, code, inst, now);
    if r.Ok? && r.value.deactivated {
      var a := LiveActivationOf(s.activations, LicenseForCode(s.licenses, s.products, KeyNamed(s.keys, key).value, code).value, inst).value;
      forall i, j | 0 <= i < |s'.activations| && 0 <= j < |s'.activations| &&
        s'.activations[i].licenseId == s'.activations[j].licenseId && s'.activations[i].instanceId == s'.activations[j].instanceId
        ensures i == j
      {
        assert s.activations[i].licenseId == s'.activations[i].licenseId && s.activations[i].instanceId == s'.activations[i].instanceId;
        assert s.activations[j].licenseId == s'.activations[j].licenseId && s.activations[j].instanceId == s'.activations[j].instanceId;
      }
    }
  }

  /** Deactivate is idempotent: after a successful deactivation, the same
      request reports `deactivated = false` and changes nothing, since the one
      activation for (license, instance) is now revoked. */
  lemma DeactivateIdempotent(s: State, key: string, code: string, inst: string, now: int, now2: int)
    requires Consistent(s)
    requires Deactivate(s, key, code, inst, now).1.Ok?
    ensures var (s1, r1) := Deactivate(s, key, code, inst, now);
      var (s2, r2) := Deactivate(s1, key, code, inst, now2);
      s2 == s1 && r2 == Ok(r1.value.(deactivated := false, revokedAt := None))
  {
    var (s1, r1) := Deactivate(s, key, code, inst, now);
    if r1.value.deactivated {
      var kid := KeyNamed(s.keys, key).value;
      var lid := LicenseForCode(s.licenses, s.products, kid, code).value;
      var a := LiveActivationOf(s.activations, lid, inst).value;
      forall i | 0 <= i < |s1.activations|
        ensures !(s1.activations[i].licenseId == lid && s1.activations[i].instanceId == inst && s1.activations[i].revokedAt.None?)
      {
        if i != a {
          assert s1.activations[i] == s.activations[i];
        }
      }
    }
  }
}

=== FILE: lifecycle.dfy ===
/** The brand's lifecycle actions on a license (LicenseLifecycleView.post):
    suspend, resume, cancel and renew, stated as a function from the store
    before the request to the store after it and the outcome. */
module Lifecycle {
  import opened Models
  import opened Outcomes
  import opened Query
  import opened Store

  /** The `extend_days` field: absent (or null), an integer, or something
      `int()` refuses. */
  datatype ExtendDays = Absent | Days(n: int) | NotAnInteger

  datatype LifecycleReply = LifecycleReply(key: string, brand: string, product: string, status: Status, expiresAt: int)

  /** The characters `str.strip()` removes: the ASCII white space, the four
      separators U+001C to U+001F, and the Unicode spaces. */
  predicate IsSpace(c: char)
  {
    c == ' ' || '\t' <= c <= '\r' || '\U{1C}' <= c <= '\U{1F}' ||
    c == '\U{85}' || c == '\U{A0}' || c == '\U{1680}' || '\U{2000}' <= c <= '\U{200A}' ||
    c == '\U{2028}' || c == '\U{2029}' || c == '\U{202F}' || c == '\U{205F}' || c == '\U{3000}'
  }

  predicate IsUpper(c: char)
  {
    'A' <= c <= 'Z'
  }

  /** ASCII lower-casing: each upper-case letter becomes its lower-case
      letter, 32 code points on, and every other character stays. */
  function Lower(s: string): (r: string)
    ensures |r| == |s|
    ensures forall i :: 0 <= i < |s| ==>
      && (IsUpper(s[i]) ==> r[i] as int == s[i] as int + 32)
      && (!IsUpper(s[i]) ==> r[i] == s[i])
      && !IsUpper(r[i])
  {
    seq(|s|, i requires 0 <= i < |s| => if IsUpper(s[i]) then (s[i] as int + 32) as char else s[i])
  }

  /** Drops leading white space: what remains is a suffix that does not start
      with white space, and everything dropped was white space. */
  function StripLeft(s: string): (r: string)
    ensures |r| <= |s| && r == s[|s| - |r|..]
    ensures r == [] || !IsSpace(r[0])
    ensures forall i :: 0 <= i < |s| - |r| ==> IsSpace(s[i])
    decreases |s|
  {
    if s != [] && IsSpace(s[0]) then StripLeft(s[1..]) else s
  }

  /** Drops trailing white space: what remains is a prefix that does not end
      with white space, and everything dropped was white space. */
  function StripRight(s: string): (r: string)
    ensures |r| <= |s| && r == s[..|r|]
    ensures r == [] || !IsSpace(r[|r| - 1])
    ensures forall i :: |r| <= i < |s| ==> IsSpace(s[i])
    decreases |s|
  {
    if s != [] && IsSpace(s[|s| - 1]) then StripRight(s[..|s| - 1]) else s
  }

  /** `str(action).lower().strip()`: the normalised action has no upper-case
      letter and neither starts nor ends with white space. */
  function NormalizeAction(raw: string): (a: string)
    ensures forall i :: 0 <= i < |a| ==> !IsUpper(a[i])
    ensures a == [] || (!IsSpace(a[0]) && !IsSpace(a[|a| - 1]))
  {
    var lowered := Lower(raw);
    var left := StripLeft(lowered);
    var r := StripRight(left);
    TrimKeepsLower(lowered, left, r);
    r
  }

  /** Cutting off a prefix and then a suffix keeps a string free of upper-case letters. */
  lemma TrimKeepsLower(s: string, t: string, u: string)
    requires forall i :: 0 <= i < |s| ==> !IsUpper(s[i])
    requires |t| <= |s| && t == s[|s| - |t|..]
    requires |u| <= |t| && u == t[..|u|]
    ensures forall i :: 0 <= i < |u| ==> !IsUpper(u[i])
  {
    forall i | 0 <= i < |u|
      ensures !IsUpper(u[i])
    {
      assert u[i] == t[i];
      assert t[i] == s[|s| - |t| + i];
    }
  }

  predicate AllSpace(s: string)
  {
    forall i :: 0 <= i < |s| ==> IsSpace(s[i])
  }

  /** Lower-casing works character by character, so it splits over concatenation. */
  lemma LowerAppend(x: string, y: string)
    ensures Lower(x + y) == Lower(x) + Lower(y)
  {
    var l := Lower(x + y);
    forall i | 0 <= i < |l|
      ensures l[i] == (Lower(x) + Lower(y))[i]
    {
      if i < |x| {
        assert (x + y)[i] == x[i];
      } else {
        assert (x + y)[i] == y[i - |x|];
      }
    }
  }

  /** Lower-casing leaves a string without upper-case letters as it is. */
  lemma LowerIdle(s: string)
    requires forall i :: 0 <= i < |s| ==> !IsUpper(s[i])
    ensures Lower(s) == s
  {
  }

  /** `strip()` removes exactly a white-space prefix in front of a string
      that does not start with white space. */
  lemma StripLeftPadding(p: string, y: string)
    requires AllSpace(p)
    requires y == [] || !IsSpace(y[0])
    ensures StripLeft(p + y) == y
  {
    var x := p + y;
    assert forall i :: 0 <= i < |p| ==> IsSpace(x[i]);
    if y != [] {
      assert x[|p|] == y[0];
    }
  }

  /** `strip()` removes exactly a white-space suffix behind a string that does
      not end with white space. */
  lemma StripRightPadding(y: string, q: string)
    requires AllSpace(q)
    requires y == [] || !IsSpace(y[|y| - 1])
    ensures StripRight(y + q) == y
  {
    var x := y + q;
    assert forall i :: |y| <= i < |x| ==> IsSpace(x[i]);
    if y != [] {
      assert x[|y| - 1] == y[|y| - 1];
    }
  }

  /** Lower-casing leaves white-space padding as it is. */
  lemma LowerPadded(pre: string, w: string, post: string)
    requires AllSpace(pre) && AllSpace(post)
    ensures Lower(pre + w + post) == pre + Lower(w) + post
  {
    LowerAppend(pre + w, post);
    LowerAppend(pre, w);
    LowerIdle(pre);
    LowerIdle(post);
  }

  /** Normalising a word padded with white space gives the lower-cased word:
      the padding is all that `strip()` removes, and lower-casing keeps the
      word's first and last characters non-white. */
  lemma NormalizePadded(pre: string, w: string, post: string)
    requires AllSpace(pre) && AllSpace(post)
    requires w == [] || (!IsSpace(w[0]) && !IsSpace(w[|w| - 1]))
    ensures NormalizeAction(pre + w + post) == Lower(w)
  {
    LowerPadded(pre, w, post);
    var lw := Lower(w);
    if lw == [] {
      assert pre + lw + post == (pre + post) + [];
      StripLeftPadding(pre + post, []);
    } else {
      assert pre + lw + post == pre + (lw + post);
      StripLeftPadding(pre, lw + post);
      StripRightPadding(lw, post);
    }
  }

  /** The four actions the lifecycle handler knows. */
  const ActionWords: set<string> := {"suspend", "resume", "cancel", "renew"}

  /** Case and surrounding white space do not matter: an action word in any
      mix of upper- and lower-case letters, with any white space around it,
      normalises to the word itself. */
  lemma ActionWordPadded(pre: string, w: string, post: string)
    requires AllSpace(pre) && AllSpace(post)
    requires Lower(w) in ActionWords
    ensures NormalizeAction(pre + w + post) == Lower(w)
  {
    var lw := Lower(w);
    assert lw != [] && !IsSpace(lw[0]) && !IsSpace(lw[|lw| - 1]);
    NormalizePadded(pre, w, post);
  }

  /** Each action word is its own normal form, so a request spelling it
      exactly reaches its branch. */
  lemma ActionWordsNormal()
    ensures forall w :: w in ActionWords ==> NormalizeAction(w) == w
  {
    forall w | w in ActionWords
      ensures NormalizeAction(w) == w
    {
      assert forall i :: 0 <= i < |w| ==> !IsUpper(w[i]);
      LowerIdle(w);
      ActionWordPadded("", w, "");
      assert "" + w + "" == w;
    }
  }

  /** The expiry renewal gives: `days` days past the current expiry when that is
      still ahead, past `now` otherwise. */
  function RenewedExpiry(expiresAt: int, now: int, days: int): int
  {
    (if expiresAt > now then expiresAt else now) + days * Day
  }

  /** Renewal by `days` days: `timedelta` refuses a day count beyond
      MaxDeltaDays either way, and the addition refuses an expiry outside the
      datetime range; either raises OverflowError, which the handler does not
      catch. */
  function Renew(l: License, days: int, now: int): Result<License>
  {
    if days < -MaxDeltaDays || MaxDeltaDays < days then Fail(ExpiryOutOfRange)
    else
      var expiry := RenewedExpiry(l.expiresAt, now, days);
      if expiry < MinInstant || MaxInstant < expiry then Fail(ExpiryOutOfRange)
      else Ok(l.(status := Valid, expiresAt := expiry))
  }

  /** The license state machine: the license after the action, or the
      failure it raises. */
  function Transition(l: License, action: string, extend: ExtendDays, now: int): (r: Result<License>)
    ensures r.Fail? ==> r.failure in {InvalidExtendDays, UnknownAction, ExpiryOutOfRange}
    ensures r.Ok? ==> r.value.keyId == l.keyId && r.value.productId == l.productId
  {
    if action == "suspend" then Ok(l.(status := Suspended))
    else if action == "resume" then Ok(if l.status != Cancelled then l.(status := Valid) else l)
    else if action == "cancel" then Ok(l.(status := Cancelled))
    else if action == "renew" then
      match extend
      case NotAnInteger => Fail(InvalidExtendDays)
      case Absent => Renew(l, DefaultTermDays, now)
      case Days(n) => Renew(l, n, now)
    else Fail(UnknownAction)
  }

  /** The Lifecycle handler. `brand` is the authenticated caller. */
  function Lifecycle(s: State, brand: nat, key: string, code: string, action: string, extend: ExtendDays, now: int): (State, Result<LifecycleReply>)
  {
    if key == "" || code == "" || action == "" then (s, Fail(MissingFields))
    else
      match KeyOfBrand(s.keys, key, brand)
      case None => (s, Fail(KeyNotFound))
      case Some(kid) =>
        match LicenseForCode(s.licenses, s.products, kid, code)
        case None => (s, Fail(LicenseNotFound))
        case Some(lid) =>
          match Transition(s.licenses[lid], NormalizeAction(action), extend, now)
          case Fail(f) => (s, Fail(f))
          case Ok(l) =>
            (s.(licenses := s.licenses[lid := l]),
             Ok(LifecycleReply(s.keys[kid].key, BrandName(s.brands, brand), ProductCode(s.products, l.productId), l.status, l.expiresAt)))
  }

  // ---------------------------------------------------------------------------

  function Max(a: int, b: int): int
  {
    if a < b then b else a
  }

  /** The transition table. Every action changes only status and expiry.
      suspend and cancel set their status; resume makes the license valid
      unless it is cancelled, which it leaves as it is; renew makes it valid
      and moves the expiry to max(expiry, now) plus the days (365 when
      absent), fails on a non-integer day count, and fails with an overflow
      when the day count or the new expiry is out of range; other actions
      fail. */
  lemma TransitionTable(l: License, action: string, extend: ExtendDays, now: int)
    ensures var r := Transition(l, action, extend, now);
      && (r.Ok? ==> r.value.(status := l.status, expiresAt := l.expiresAt) == l)
      && (action in {"suspend", "resume", "cancel"} ==> r.Ok? && r.value.expiresAt == l.expiresAt)
      && (action == "suspend" ==> r.value.status == Suspended)
      && (action == "cancel" ==> r.value.status == Cancelled)
      && (action == "resume" ==> r.value.status == if l.status == Cancelled then Cancelled else Valid)
      && (action == "renew" && extend == NotAnInteger ==> r == Fail(InvalidExtendDays))
      && (action == "renew" && extend != NotAnInteger ==>
            var days := if extend.Days? then extend.n else 365;
            var expiry := Max(l.expiresAt, now) + days * 86400;
            && (r.Ok? <==> -999999999 <= days <= 999999999 && MinInstant <= expiry <= MaxInstant)
            && (r.Ok? ==> r.value.status == Valid && r.value.expiresAt == expiry)
            && (r.Fail? ==> r == Fail(ExpiryOutOfRange)))
      && (action !in {"suspend", "resume", "cancel", "renew"} ==> r == Fail(UnknownAction))
  {
  }

  /** Resuming a cancelled license leaves it exactly as it was. */
  lemma ResumeCancelledIsNoop(l: License, extend: ExtendDays, now: int)
    requires l.status == Cancelled
    ensures Transition(l, "resume", extend, now) == Ok(l)
  {
  }

  /** A renewal by a positive number of days that stays in the datetime range
      leaves the license active at `now`, and never moves its expiry
      backwards. */
  lemma RenewActivates(l: License, n: int, now: int)
    requires 0 < n <= MaxDeltaDays && MinInstant <= now
    requires Max(l.expiresAt, now) + n * Day <= MaxInstant
    ensures var r := Transition(l, "renew", Days(n), now);
      r.Ok? && IsActive(r.value, now) && r.value.expiresAt > l.expiresAt
  {
  }

  /** Renewal does not look at the status, so a cancelled license renews
      exactly as a valid one would and becomes valid again: cancellation is
      final only against resume. */
  lemma RenewRevivesCancelled(l: License, extend: ExtendDays, now: int)
    requires l.status == Cancelled
    ensures var r := Transition(l, "renew", extend, now);
      && r == Transition(l.(status := Valid), "renew", extend, now)
      && (r.Ok? ==> r.value.status == Valid)
  {
  }

  /** Lifecycle fails with 400 on a blank field and 404 when the key is not
      the caller brand's or has no license for the product; a failure changes
      nothing. */
  lemma LifecycleOutcomes(s: State, brand: nat, key: string, code: string, action: string, extend: ExtendDays, now: int)
    ensures var (s', r) := Lifecycle(s, brand, key, code, action, extend, now);
      && (r.Fail? ==> s' == s)
      && (r == Fail(MissingFields) <==> key == "" || code == "" || action == "")
      && (r == Fail(KeyNotFound) <==> key != "" && code != "" && action != "" && KeyOfBrand(s.keys, key, brand).None?)
      && (r == Fail(LicenseNotFound) <==>
            key != "" && code != "" && action != "" && KeyOfBrand(s.keys, key, brand).Some? &&
            LicenseForCode(s.licenses, s.products, KeyOfBrand(s.keys, key, brand).value, code).None?)
  {
    var (s', r) := Lifecycle(s, brand, key, code, action, extend, now);
    if key == "" || code == "" || action == "" {
      assert r == Fail(MissingFields) && s' == s;
    } else {
      match KeyOfBrand(s.keys, key, brand)
      case None =>
        assert r == Fail(KeyNotFound) && s' == s;
      case Some(kid) =>
        match LicenseForCode(s.licenses, s.products, kid, code)
        case None =>
          assert r == Fail(LicenseNotFound) && s' == s;
        case Some(lid) =>
          var t := Transition(s.licenses[lid], NormalizeAction(action), extend, now);
          if t.Fail? {
            assert r == Fail(t.failure) && s' == s;
          } else {
            assert r.Ok?;
          }
    }
  }

  /** A successful lifecycle request replaces only the one license by its
      transition and reports the new status and expiry; keys, products and all
      activations stay (suspending or cancelling does not revoke activations). */
  lemma LifecycleUpdate(s: State, brand: nat, key: string, code: string, action: string, extend: ExtendDays, now: int)
    requires Lifecycle(s, brand, key, code, action, extend, now).1.Ok?
    ensures var (s', r) := Lifecycle(s, brand, key, code, action, extend, now);
      var kid := KeyOfBrand(s.keys, key, brand).value;
      var lid := LicenseForCode(s.licenses, s.products, kid, code).value;
      && Transition(s.licenses[lid], NormalizeAction(action), extend, now).Ok?
      && var l := Transition(s.licenses[lid], NormalizeAction(action), extend, now).value;
      && s' == s.(licenses := s.licenses[lid := l])
      && r.value.status == l.status && r.value.expiresAt == l.expiresAt
      && r.value.key == key && r.value.product == code
      && (brand < |s.brands| ==> r.value.brand == s.brands[brand].name)
  {
  }

  /** Once the key and the license are found, the request succeeds exactly
      when the action's transition does, and otherwise fails with the
      transition's own failure and changes nothing. */
  lemma LifecycleDispatch(s: State, brand: nat, key: string, code: string, action: string, extend: ExtendDays, now: int)
    ensures var (s', r) := Lifecycle(s, brand, key, code, action, extend, now);
      key != "" && code != "" && action != "" && KeyOfBrand(s.keys, key, brand).Some? &&
      LicenseForCode(s.licenses, s.products, KeyOfBrand(s.keys, key, brand).value, code).Some? ==>
        var lid := LicenseForCode(s.licenses, s.products, KeyOfBrand(s.keys, key, brand).value, code).value;
        var t := Transition(s.licenses[lid], NormalizeAction(action), extend, now);
        && (r.Ok? <==> t.Ok?)
        && (r.Fail? ==> r == Fail(t.failure) && s' == s)
  {
  }

  /** A key of another brand is reported as not found, never as forbidden, and
      its licenses are left alone. */
  lemma LifecycleOtherBrand(s: State, brand: nat, key: string, code: string, action: string, extend: ExtendDays, now: int)
    requires Consistent(s)
    requires key != "" && code != "" && action != ""
    requires KeyNamed(s.keys, key).Some? && s.keys[KeyNamed(s.keys, key).value].brand != brand
    ensures Lifecycle(s, brand, key, code, action, extend, now) == (s, Fail(KeyNotFound))
  {
    KeyOfBrandScoped(s, key, brand);
  }

  /** Lifecycle keeps the store consistent. */
  lemma LifecycleConsistent(s: State, brand: nat, key: string, code: string, action: string, extend: ExtendDays, now: int)
    requires Consistent(s)
    ensures Consistent(Lifecycle(s, brand, key, code, action, extend, now).0)
  {
    var (s', r) := Lifecycle(s, brand, key, code, action, extend, now);
    if r.Ok? {
      var lid := LicenseForCode(s.licenses, s.products, KeyOfBrand(s.keys, key, brand).value, code).value;
      TransitionTable(s.licenses[lid], NormalizeAction(action), extend, now);
      LicenseUpdateConsistent(s, lid, Transition(s.licenses[lid], NormalizeAction(action), extend, now).value);
    }
  }
}

=== FILE: models.dfy ===
/** The records of the license service (licenses/models.py): brands, products,
    license keys, licenses and activations, with the few rules the model layer
    itself states: the `is_active` predicate, the key generators, revocation and
    the two storage-level uniqueness constraints. Row ids are indices into the
    tables of the store (see module Store). */
module Models {

  datatype Option<+T> = None | Some(value: T)

  /** Timestamps are whole seconds since 1970-01-01T00:00:00 UTC; a day is
      86400 of them. */
  const Day: int := 86400

  /** The range a datetime can hold: 0001-01-01T00:00:00 to
      9999-12-31T23:59:59 UTC. An addition that leaves it raises OverflowError. */
  const MinInstant: int := -62135596800
  const MaxInstant: int := 253402300799

  /** The largest day count, either way, a timedelta can hold. */
  const MaxDeltaDays: int := 999999999

  /** Term of a newly provisioned license, and default renewal, in days. */
  const DefaultTermDays: int := 365

  const BrandKeyPrefix: string := "br_"
  const LicenseKeyPrefix: string := "lk_"

  /** The three status choices of a License. */
  datatype Status = Valid | Suspended | Cancelled

  /** The stored text of a status: one of the three choices. */
  function StatusName(s: Status): (n: string)
    ensures n in {"valid", "suspended", "cancelled"}
  {
    match s
    case Valid => "valid"
    case Suspended => "suspended"
    case Cancelled => "cancelled"
  }

  /** The status a stored text stands for; any text outside the choices is none. */
  function ParseStatus(name: string): (r: Option<Status>)
    ensures r.Some? <==> name in {"valid", "suspended", "cancelled"}
    ensures r.Some? ==> StatusName(r.value) == name
  {
    if name == "valid" then Some(Valid)
    else if name == "suspended" then Some(Suspended)
    else if name == "cancelled" then Some(Cancelled)
    else None
  }

  /** Every status is stored under its own text and read back as itself. */
  lemma StatusNameRoundTrip(s: Status)
    ensures ParseStatus(StatusName(s)) == Some(s)
  {
  }

  datatype Brand = Brand(name: string, apiKey: string)

  /** `brand` is the id of the owning Brand. */
  datatype Product = Product(brand: nat, code: string, name: string)

  /** `brand` is the id of the owning Brand. */
  datatype LicenseKey = LicenseKey(brand: nat, email: string, key: string, createdAt: int)

  /** `keyId` and `productId` are the ids of the parent LicenseKey and of the Product. */
  datatype License = License(keyId: nat, productId: nat, status: Status, expiresAt: int, createdAt: int)

  /** `licenseId` is the id of the parent License; `revokedAt` is null while the activation is live. */
  datatype Activation = Activation(licenseId: nat, instanceId: string, createdAt: int, revokedAt: Option<int>)

  predicate HasPrefix(s: string, p: string)
  {
    |p| <= |s| && s[..|p|] == p
  }

  /** A brand API key: the `br_` prefix followed by the random token. */
  function GenerateApiKey(token: string): (k: string)
    ensures HasPrefix(k, BrandKeyPrefix)
    ensures k[|BrandKeyPrefix|..] == token
  {
    BrandKeyPrefix + token
  }

  /** A license key: the `lk_` prefix followed by the random token. */
  function GenerateKey(token: string): (k: string)
    ensures HasPrefix(k, LicenseKeyPrefix)
    ensures k[|LicenseKeyPrefix|..] == token
  {
    LicenseKeyPrefix + token
  }

  /** Distinct tokens never give the same key, so key uniqueness reduces to token freshness. */
  lemma GenerateKeyInjective(t1: string, t2: string)
    ensures GenerateKey(t1) == GenerateKey(t2) <==> t1 == t2
  {
    if GenerateKey(t1) == GenerateKey(t2) {
      assert t1 == GenerateKey(t1)[|LicenseKeyPrefix|..];
    }
  }

  /** A license is active when it is valid and expires strictly after `now`. */
  predicate IsActive(l: License, now: int)
  {
    l.status == Valid && l.expiresAt > now
  }

  /** A license that is active at some time was active at every earlier time;
      at its expiry instant it is no longer active. */
  lemma ActiveUntilExpiry(l: License, earlier: int, now: int)
    requires earlier <= now
    ensures IsActive(l, now) ==> IsActive(l, earlier)
    ensures !IsActive(l, l.expiresAt)
  {
  }

  /** Revocation stamps `revokedAt` with `now` and changes no other field. */
  function Revoke(a: Activation, now: int): (r: Activation)
    ensures r.revokedAt == Some(now)
    ensures r.(revokedAt := a.revokedAt) == a
  {
    a.(revokedAt := Some(now))
  }

  /** The storage constraint `uniq_brand_product_code`: one Product per (brand, code). */
  ghost predicate UniqueProducts(ps: seq<Product>)
  {
    forall i, j | 0 <= i < |ps| && 0 <= j < |ps| && ps[i].brand == ps[j].brand && ps[i].code == ps[j].code :: i == j
  }

  /** The storage constraint `uniq_license_instance`: one Activation per (license, instance_id). */
  ghost predicate UniqueActivations(acts: seq<Activation>)
  {
    forall i, j | 0 <= i < |acts| && 0 <= j < |acts| && acts[i].licenseId == acts[j].licenseId && acts[i].instanceId == acts[j].instanceId :: i == j
  }
}

=== FILE: outcomes.dfy ===
/** The outcome of a request handler: a reply, or one of the failures the
    handlers report, each with the HTTP status the service answers with. */
module Outcomes {

  datatype Failure =
    | MissingFields        // a required request field is absent or blank
    | InvalidEmail         // customer_email is blank
    | EmptyProductCodes    // product_codes is an empty list
    | ProductsNotFound     // some code does not name a product of the brand (or codes repeat)
    | KeyNotFound          // no license key with that string (for Lifecycle: of the caller's brand)
    | LicenseNotFound      // the key holds no license for that product code
    | NoActiveLicenses     // the key holds no active license
    | InvalidExtendDays    // extend_days is not an integer
    | UnknownAction        // lifecycle action is none of suspend, resume, cancel, renew
    | KeyCollision         // a generated license key is already taken (storage uniqueness error)
    | ExpiryOutOfRange     // a renewal's day count or new expiry is beyond what a datetime holds (OverflowError)

  datatype Result<+T> = Ok(value: T) | Fail(failure: Failure)

  /** The HTTP status each failure is answered with: a client error for every
      failure the handlers check for, 500 for the two errors they let escape. */
  function HttpStatus(f: Failure): (code: int)
    ensures code in {400, 403, 404, 500}
    ensures code == 500 <==> f == KeyCollision || f == ExpiryOutOfRange
  {
    match f
    case MissingFields | InvalidEmail | EmptyProductCodes | ProductsNotFound
      | InvalidExtendDays | UnknownAction => 400
    case NoActiveLicenses => 403
    case KeyNotFound | LicenseNotFound => 404
    case KeyCollision | ExpiryOutOfRange => 500
  }
}

=== FILE: provisioning.dfy ===
/** Provisioning (ProvisionLicenseView.post): validate the product codes, find
    or create the caller brand's key for the customer, then find or create one
    license per product. Stated as a function from the store before the request
    to the store after it and the outcome. */
module Provisioning {
  import opened Models
  import opened Outcomes
  import opened Query
  import opened Store
  import Serializers

  datatype ProvisionReply = ProvisionReply(key: string, brand: string, email: string, licenses: seq<LicenseView>)

  /** A license as provisioning creates it: valid for a year from `now`. */
  function NewLicense(kid: nat, pid: nat, now: int): License
  {
    License(kid, pid, Valid, now + DefaultTermDays * Day, now)
  }

  /** `License.objects.get_or_create(license_key, product)`: the table after
      the call and the license it yields. */
  function GetOrCreateLicense(ls: seq<License>, kid: nat, pid: nat, now: int): (seq<License>, License)
  {
    match LicenseOf(ls, kid, pid)
    case Some(i) => (ls, ls[i])
    case None => (ls + [NewLicense(kid, pid, now)], NewLicense(kid, pid, now))
  }

  /** The provisioning loop over the validated products: the license table
      after it, and the licenses collected for the reply. */
  function ProvisionLicenses(ls: seq<License>, kid: nat, pids: seq<nat>, now: int): (seq<License>, seq<License>)
    decreases |pids|
  {
    if pids == [] then (ls, [])
    else
      var (ls1, out1) := ProvisionLicenses(ls, kid, pids[..|pids| - 1], now);
      var (ls2, lic) := GetOrCreateLicense(ls1, kid, pids[|pids| - 1], now);
      (ls2, out1 + [lic])
  }

  /** `LicenseKey.objects.get_or_create(brand, customer_email)`: the store after
      the call and the key's id, or the storage error raised when the new
      key string is already taken. */
  function GetOrCreateKey(s: State, brand: nat, email: string, now: int, token: string): Result<(State, nat)>
  {
    match KeyOfOwner(s.keys, brand, email)
    case Some(kid) => Ok((s, kid))
    case None =>
      var key := GenerateKey(token);
      if KeyNamed(s.keys, key).Some? then Fail(KeyCollision)
      else Ok((s.(keys := s.keys + [LicenseKey(brand, email, key, now)]), |s.keys|))
  }

  /** The whole handler. `brand` is the authenticated caller; `token` is the
      random part of a key, should one be created. */
  function Provision(s: State, brand: nat, email: string, codes: seq<string>, now: int, token: string): (State, Result<ProvisionReply>)
  {
    if email == "" then (s, Fail(InvalidEmail))
    else
      match Serializers.ValidateProductCodes(s.products, brand, codes)
      case Fail(f) => (s, Fail(f))
      case Ok(pids) =>
        match GetOrCreateKey(s, brand, email, now, token)
        case Fail(f) => (s, Fail(f))
        case Ok((s1, kid)) =>
          var (ls, out) := ProvisionLicenses(s1.licenses, kid, pids, now);
          (s1.(licenses := ls),
           Ok(ProvisionReply(s1.keys[kid].key, BrandName(s.brands, brand), s1.keys[kid].email, LicenseViews(s.products, out))))
  }

  // ---------------------------------------------------------------------------
  // The find-or-create steps

  /** get_or_create on licenses: an existing row is returned untouched; otherwise
      exactly one new row is appended. Either way the pair's lookup then names
      the returned license, and every lookup that succeeded before is unchanged. */
  lemma GetOrCreateLicenseSpec(ls: seq<License>, kid: nat, pid: nat, now: int)
    ensures var (ls', lic) := GetOrCreateLicense(ls, kid, pid, now);
      && (LicenseOf(ls, kid, pid).Some? ==> ls' == ls)
      && (LicenseOf(ls, kid, pid).None? ==> ls' == ls + [NewLicense(kid, pid, now)])
      && LicenseOf(ls', kid, pid).Some?
      && LicenseOf(ls', kid, pid).value < |ls'|
      && ls'[LicenseOf(ls', kid, pid).value] == lic
      && forall k, p :: LicenseOf(ls, k, p).Some? ==> LicenseOf(ls', k, p) == LicenseOf(ls, k, p)
  {
    var (ls', lic) := GetOrCreateLicense(ls, kid, pid, now);
    if LicenseOf(ls, kid, pid).None? {
      FirstAppend(ls, NewLicense(kid, pid, now), (l: License) => l.keyId == kid && l.productId == pid);
      forall k, p | LicenseOf(ls, k, p).Some?
        ensures LicenseOf(ls', k, p) == LicenseOf(ls, k, p)
      {
        FirstAppend(ls, NewLicense(kid, pid, now), (l: License) => l.keyId == k && l.productId == p);
      }
    }
  }

  /** The provisioning loop keeps every existing license as it was, and every
      license it adds is a new year-long valid license of one of the products,
      for a (key, product) pair that had none. */
  lemma {:induction false} ProvisionLicensesKeeps(ls: seq<License>, kid: nat, pids: seq<nat>, now: int)
    ensures var ls' := ProvisionLicenses(ls, kid, pids, now).0;
      && |ls| <= |ls'|
      && ls'[..|ls|] == ls
      && forall i :: |ls| <= i < |ls'| ==>
           ls'[i] == NewLicense(kid, ls'[i].productId, now) && ls'[i].productId in pids &&
           LicenseOf(ls, kid, ls'[i].productId).None?
    decreases |pids|
  {
    if pids != [] {
      var init := pids[..|pids| - 1];
      var p := pids[|pids| - 1];
      ProvisionLicensesKeeps(ls, kid, init, now);
      var (ls1, out1) := ProvisionLicenses(ls, kid, init, now);
      GetOrCreateLicenseSpec(ls1, kid, p, now);
      var ls2 := GetOrCreateLicense(ls1, kid, p, now).0;
      assert ls2[..|ls1|] == ls1;
      assert ls2[..|ls|] == ls1[..|ls|];
      forall i | |ls| <= i < |ls2|
        ensures ls2[i] == NewLicense(kid, ls2[i].productId, now) && ls2[i].productId in pids
        ensures LicenseOf(ls, kid, ls2[i].productId).None?
      {
        if i < |ls1| {
          assert ls2[i] == ls1[i];
          assert ls1[i].productId in init;
        } else {
          assert LicenseOf(ls1, kid, p).None?;
          assert ls2[i].productId == p;
        }
      }
    }
  }

  /** After the provisioning loop every product of the list has a license under
      the key, and the reply lists, product by product, the license the
      (key, product) lookup names. */
  lemma {:induction false} ProvisionLicensesCovers(ls: seq<License>, kid: nat, pids: seq<nat>, now: int)
    ensures var (ls', out) := ProvisionLicenses(ls, kid, pids, now);
      && |out| == |pids|
      && forall j :: 0 <= j < |pids| ==>
           LicenseOf(ls', kid, pids[j]).Some? && LicenseOf(ls', kid, pids[j]).value < |ls'| &&
           out[j] == ls'[LicenseOf(ls', kid, pids[j]).value]
    decreases |pids|
  {
    if pids != [] {
      var init := pids[..|pids| - 1];
      var p := pids[|pids| - 1];
      ProvisionLicensesCovers(ls, kid, init, now);
      var (ls1, out1) := ProvisionLicenses(ls, kid, init, now);
      GetOrCreateLicenseSpec(ls1, kid, p, now);
      var (ls2, lic) := GetOrCreateLicense(ls1, kid, p, now);
      var out := out1 + [lic];
      assert ProvisionLicenses(ls, kid, pids, now) == (ls2, out);
      forall j | 0 <= j < |pids|
        ensures LicenseOf(ls2, kid, pids[j]).Some? && LicenseOf(ls2, kid, pids[j]).value < |ls2|
        ensures out[j] == ls2[LicenseOf(ls2, kid, pids[j]).value]
      {
        if j < |init| {
          assert pids[j] == init[j] && out[j] == out1[j];
          var i := LicenseOf(ls1, kid, init[j]).value;
          assert LicenseOf(ls2, kid, pids[j]) == Some(i);
          assert ls2[i] == ls1[i];
        }
      }
    }
  }

  /** When every product already has its license under the key, the loop adds
      nothing. */
  lemma {:induction false} ProvisionLicensesIdle(ls: seq<License>, kid: nat, pids: seq<nat>, now: int)
    requires forall j :: 0 <= j < |pids| ==> LicenseOf(ls, kid, pids[j]).Some?
    ensures ProvisionLicenses(ls, kid, pids, now).0 == ls
    decreases |pids|
  {
    if pids != [] {
      ProvisionLicensesIdle(ls, kid, pids[..|pids| - 1], now);
    }
  }

  /** The loop keeps licenses unique per (key, product). */
  lemma {:induction false} ProvisionLicensesUnique(ls: seq<License>, kid: nat, pids: seq<nat>, now: int)
    requires UniqueLicenses(ls)
    ensures UniqueLicenses(ProvisionLicenses(ls, kid, pids, now).0)
    decreases |pids|
  {
    if pids != [] {
      var p := pids[|pids| - 1];
      ProvisionLicensesUnique(ls, kid, pids[..|pids| - 1], now);
      var ls1 := ProvisionLicenses(ls, kid, pids[..|pids| - 1], now).0;
      var ls' := ProvisionLicenses(ls, kid, pids, now).0;
      GetOrCreateLicenseSpec(ls1, kid, p, now);
      if LicenseOf(ls1, kid, p).None? {
        forall i, j | 0 <= i < |ls'| && 0 <= j < |ls'| && ls'[i].keyId == ls'[j].keyId && ls'[i].productId == ls'[j].productId
          ensures i == j
        {
          if i < |ls1| && j < |ls1| {
            assert ls1[i] == ls'[i] && ls1[j] == ls'[j];
          }
        }
      }
    }
  }

  /** get_or_create on keys: an existing key for (brand, email) is reused and
      nothing changes; otherwise exactly one key `lk_<token>` is appended. Either
      way the owner lookup afterwards names the key returned. */
  lemma GetOrCreateKeySpec(s: State, brand: nat, email: string, now: int, token: string)
    requires GetOrCreateKey(s, brand, email, now, token).Ok?
    ensures var (s1, kid) := GetOrCreateKey(s, brand, email, now, token).value;
      && s1 == s.(keys := s1.keys)
      && kid < |s1.keys|
      && KeyOfOwner(s1.keys, brand, email) == Some(kid)
      && (KeyOfOwner(s.keys, brand, email).Some? ==> s1 == s)
      && (KeyOfOwner(s.keys, brand, email).None? ==>
            s1.keys == s.keys + [LicenseKey(brand, email, GenerateKey(token), now)] && kid == |s.keys|)
  {
    if KeyOfOwner(s.keys, brand, email).None? {
      FirstAppend(s.keys, LicenseKey(brand, email, GenerateKey(token), now), (k: LicenseKey) => k.brand == brand && k.email == email);
    }
  }

  // ---------------------------------------------------------------------------
  // Properties of the handler

  /** A request fails exactly on a blank email, on product codes the validator
      refuses, or when a new key's string is already taken; a failed request
      writes nothing (validation happens before any write). The first two are
      answered 400 with the validator's own failure, the collision 500. */
  lemma ProvisionFailures(s: State, brand: nat, email: string, codes: seq<string>, now: int, token: string)
    ensures var (s', r) := Provision(s, brand, email, codes, now, token);
      && (r.Fail? ==> s' == s)
      && (r.Fail? <==>
            || email == ""
            || Serializers.ValidateProductCodes(s.products, brand, codes).Fail?
            || (KeyOfOwner(s.keys, brand, email).None? && KeyNamed(s.keys, GenerateKey(token)).Some?))
      && (email == "" ==> r == Fail(InvalidEmail))
      && (email != "" && Serializers.ValidateProductCodes(s.products, brand, codes).Fail? ==>
            r == Fail(Serializers.ValidateProductCodes(s.products, brand, codes).failure))
      && (r == Fail(KeyCollision) <==>
            email != "" && Serializers.ValidateProductCodes(s.products, brand, codes).Ok? &&
            KeyOfOwner(s.keys, brand, email).None? && KeyNamed(s.keys, GenerateKey(token)).Some?)
      && (r.Fail? ==> HttpStatus(r.failure) == if r.failure == KeyCollision then 500 else 400)
  {
  }

  /** On success the reply names the customer's one key: the key the store
      already held for (brand, email), unchanged, or a new `lk_` key appended
      as the only change to the key table. */
  lemma ProvisionKey(s: State, brand: nat, email: string, codes: seq<string>, now: int, token: string)
    requires Provision(s, brand, email, codes, now, token).1.Ok?
    ensures var (s', r) := Provision(s, brand, email, codes, now, token);
      && r.value.email == email
      && (brand < |s.brands| ==> r.value.brand == s.brands[brand].name)
      && match KeyOfOwner(s.keys, brand, email)
         case Some(k) => s'.keys == s.keys && r.value.key == s.keys[k].key
         case None => s'.keys == s.keys + [LicenseKey(brand, email, GenerateKey(token), now)] && r.value.key == GenerateKey(token)
  {
    GetOrCreateKeySpec(s, brand, email, now, token);
  }

  /** On success: every existing license is left as it was (status and expiry
      included); each license added is valid until `now` + 365 days, under the
      customer's key, for a listed product that had none; and the reply lists,
      for each validated product in id order, the one license it now has. */
  lemma ProvisionLicensesResult(s: State, brand: nat, email: string, codes: seq<string>, now: int, token: string)
    requires Provision(s, brand, email, codes, now, token).1.Ok?
    ensures var (s', r) := Provision(s, brand, email, codes, now, token);
      var pids := Serializers.ValidateProductCodes(s.products, brand, codes).value;
      && s'.brands == s.brands && s'.products == s.products && s'.activations == s.activations
      && KeyOfOwner(s'.keys, brand, email).Some?
      && var kid := KeyOfOwner(s'.keys, brand, email).value;
      && |s.licenses| <= |s'.licenses|
      && s'.licenses[..|s.licenses|] == s.licenses
      && (forall i :: |s.licenses| <= i < |s'.licenses| ==>
            && s'.licenses[i].keyId == kid
            && s'.licenses[i].status == Valid
            && s'.licenses[i].expiresAt == now + 365 * 86400
            && s'.licenses[i].productId in pids)
      && |r.value.licenses| == |pids| == |codes|
      && forall j :: 0 <= j < |pids| ==>
           && LicenseOf(s'.licenses, kid, pids[j]).Some?
           && var l := s'.licenses[LicenseOf(s'.licenses, kid, pids[j]).value];
           r.value.licenses[j] == LicenseView(s.products[pids[j]].code, l.status, l.expiresAt)
  {
    var pids := Serializers.ValidateProductCodes(s.products, brand, codes).value;
    GetOrCreateKeySpec(s, brand, email, now, token);
    var (s1, kid) := GetOrCreateKey(s, brand, email, now, token).value;
    ProvisionLicensesKeeps(s1.licenses, kid, pids, now);
    ProvisionLicensesCovers(s1.licenses, kid, pids, now);
  }

  /** Provisioning keeps the store consistent: in particular one key per
      (brand, email) and one license per (key, product). */
  lemma ProvisionConsistent(s: State, brand: nat, email: string, codes: seq<string>, now: int, token: string)
    requires Consistent(s) && brand < |s.brands|
    ensures Consistent(Provision(s, brand, email, codes, now, token).0)
  {
    var (s', r) := Provision(s, brand, email, codes, now, token);
    if r.Ok? {
      var pids := Serializers.ValidateProductCodes(s.products, brand, codes).value;
      KeyStepConsistent(s, brand, email, now, token);
      var (s1, kid) := GetOrCreateKey(s, brand, email, now, token).value;
      LicenseStepConsistent(s1, kid, pids, now);
    }
  }

  /** Finding or creating the key keeps the store consistent, and the key
      belongs to the calling brand. */
  lemma KeyStepConsistent(s: State, brand: nat, email: string, now: int, token: string)
    requires Consistent(s) && brand < |s.brands|
    requires GetOrCreateKey(s, brand, email, now, token).Ok?
    ensures var (s1, kid) := GetOrCreateKey(s, brand, email, now, token).value;
      Consistent(s1) && kid < |s1.keys| && s1.keys[kid].brand == brand
  {
    GetOrCreateKeySpec(s, brand, email, now, token);
    var (s1, kid) := GetOrCreateKey(s, brand, email, now, token).value;
    if KeyOfOwner(s.keys, brand, email).None? {
      var nk := LicenseKey(brand, email, GenerateKey(token), now);
      assert forall i :: 0 <= i < |s.keys| ==> !(s.keys[i].brand == brand && s.keys[i].email == email);
      assert forall i :: 0 <= i < |s.keys| ==> s.keys[i].key != nk.key;
      assert forall i :: 0 <= i < |s.keys| ==> s1.keys[i] == s.keys[i];
      forall i | 0 <= i < |s.licenses|
        ensures LicenseRefs(s1, s.licenses[i])
      {
        assert LicenseRefs(s, s.licenses[i]);
      }
    }
  }

  /** The provisioning loop keeps the store consistent when every product it is
      given belongs to the key's brand. */
  lemma LicenseStepConsistent(s: State, kid: nat, pids: seq<nat>, now: int)
    requires Consistent(s) && kid < |s.keys|
    requires forall k :: 0 <= k < |pids| ==> pids[k] < |s.products| && s.products[pids[k]].brand == s.keys[kid].brand
    ensures Consistent(s.(licenses := ProvisionLicenses(s.licenses, kid, pids, now).0))
  {
    var s' := s.(licenses := ProvisionLicenses(s.licenses, kid, pids, now).0);
    ProvisionLicensesKeeps(s.licenses, kid, pids, now);
    ProvisionLicensesUnique(s.licenses, kid, pids, now);
    forall i | 0 <= i < |s'.licenses|
      ensures LicenseRefs(s', s'.licenses[i])
    {
      if i < |s.licenses| {
        assert s'.licenses[i] == s.licenses[i];
        assert LicenseRefs(s, s.licenses[i]);
      } else {
        var p := s'.licenses[i].productId;
        var k :| 0 <= k < |pids| && pids[k] == p;
      }
    }
  }

  /** Provisioning is idempotent: repeating a successful request, at any later
      time and with any other random token, changes nothing and returns the
      same reply (same key, same licenses with the same status and expiry). */
  lemma ProvisionIdempotent(s: State, brand: nat, email: string, codes: seq<string>, now: int, token: string, now2: int, token2: string)
    requires Consistent(s)
    requires Provision(s, brand, email, codes, now, token).1.Ok?
    ensures var (s1, r1) := Provision(s, brand, email, codes, now, token);
      Provision(s1, brand, email, codes, now2, token2) == (s1, r1)
  {
    var (s1, r1) := Provision(s, brand, email, codes, now, token);
    var pids := Serializers.ValidateProductCodes(s.products, brand, codes).value;
    GetOrCreateKeySpec(s, brand, email, now, token);
    var (sk, kid) := GetOrCreateKey(s, brand, email, now, token).value;
    ProvisionLicensesCovers(sk.licenses, kid, pids, now);
    var (ls, out) := ProvisionLicenses(sk.licenses, kid, pids, now);
    assert s1 == sk.(licenses := ls);
    assert GetOrCreateKey(s1, brand, email, now2, token2) == Ok((s1, kid));
    ProvisionLicensesIdle(ls, kid, pids, now2);
    ProvisionLicensesCovers(ls, kid, pids, now2);
    var out2 := ProvisionLicenses(ls, kid, pids, now2).1;
    assert out2 == out;
  }
}

=== FILE: query.dfy ===
/** The two shapes of table query the handlers use: `filter(...).first()`,
    the row of lowest id that matches, and `filter(...)`, every matching row in
    id order. Rows are named by their index, which stands for the id. */
module Query {
  import opened Models

  /** The lowest index whose row satisfies `p`, if any. */
  function First<T>(s: seq<T>, p: T -> bool): (r: Option<nat>)
    ensures r.Some? ==> r.value < |s| && p(s[r.value])
    ensures r.Some? ==> forall j :: 0 <= j < r.value ==> !p(s[j])
    ensures r.None? <==> forall j :: 0 <= j < |s| ==> !p(s[j])
    decreases |s|
  {
    if |s| == 0 then None
    else if p(s[0]) then Some(0)
    else
      match First(s[1..], p)
      case None => None
      case Some(i) => Some(i + 1)
  }

  /** When at most one row satisfies `p`, First finds exactly the row that does. */
  lemma FirstOfUnique<T>(s: seq<T>, p: T -> bool, i: nat)
    requires i < |s| && p(s[i])
    ensures First(s, p) == Some(i) <==> forall j :: 0 <= j < i ==> !p(s[j])
  {
  }

  /** Appending a row leaves the first match among the earlier rows unchanged. */
  lemma FirstAppend<T>(s: seq<T>, x: T, p: T -> bool)
    ensures First(s, p).Some? ==> First(s + [x], p) == First(s, p)
    ensures First(s, p).None? ==> First(s + [x], p) == if p(x) then Some(|s|) else None
  {
    var t := s + [x];
    assert forall j :: 0 <= j < |s| ==> t[j] == s[j];
    if First(s, p).Some? {
      FirstOfUnique(t, p, First(s, p).value);
    } else if p(x) {
      FirstOfUnique(t, p, |s|);
    }
  }

  /** The indices of every row satisfying `p`, in increasing order. */
  function Indices<T>(s: seq<T>, p: T -> bool): (r: seq<nat>)
    ensures forall k :: 0 <= k < |r| ==> r[k] < |s| && p(s[r[k]])
    ensures forall i :: 0 <= i < |s| && p(s[i]) ==> i in r
    ensures Increasing(r)
    decreases |s|
  {
    if |s| == 0 then []
    else
      var init := s[..|s| - 1];
      var r0 := Indices(init, p);
      assert forall k :: 0 <= k < |r0| ==> s[r0[k]] == init[r0[k]];
      assert forall i :: 0 <= i < |init| ==> s[i] == init[i];
      r0 + (if p(s[|s| - 1]) then [|s| - 1] else [])
  }

  /** Strictly increasing, hence free of repetitions. */
  predicate Increasing(r: seq<nat>)
  {
    forall a, b :: 0 <= a < b < |r| ==> r[a] < r[b]
  }

  ghost predicate Distinct<T>(s: seq<T>)
  {
    forall i, j | 0 <= i < |s| && 0 <= j < |s| && s[i] == s[j] :: i == j
  }

  function Elements<T>(s: seq<T>): set<T>
  {
    set x | x in s
  }

  /** A sequence has at most as many distinct elements as entries, and exactly
      as many precisely when no entry repeats. */
  lemma {:induction false} ElementsCount<T>(s: seq<T>)
    ensures |Elements(s)| <= |s|
    ensures |Elements(s)| == |s| <==> Distinct(s)
  {
    if |s| == 0 {
      assert Elements(s) == {};
    } else {
      var t := s[1..];
      ElementsCount(t);
      assert Elements(s) == {s[0]} + Elements(t);
      if s[0] in t {
        assert Elements(s) == Elements(t);
        var k :| 0 <= k < |t| && t[k] == s[0];
        assert s[k + 1] == s[0];
        assert !Distinct(s);
      } else {
        assert |Elements(s)| == |Elements(t)| + 1;
        if Distinct(t) {
          forall i, j | 0 <= i < |s| && 0 <= j < |s| && s[i] == s[j]
            ensures i == j
          {
            if i > 0 && j > 0 {
              assert t[i - 1] == t[j - 1];
            }
          }
        } else {
          var i, j :| 0 <= i < |t| && 0 <= j < |t| && t[i] == t[j] && i != j;
          assert s[i + 1] == s[j + 1];
        }
      }
    }
  }

  /** A subset as large as its superset is the superset. */
  lemma {:induction false} SubsetOfEqualSize<T>(a: set<T>, b: set<T>)
    requires a <= b && |a| == |b|
    ensures a == b
  {
    if a != b {
      var x :| x in b && x !in a;
      assert a <= b - {x};
      SubsetSize(a, b - {x});
    }
  }

  lemma {:induction false} SubsetSize<T>(a: set<T>, b: set<T>)
    requires a <= b
    ensures |a| <= |b|
  {
    assert b == a + (b - a);
  }
}

=== FILE: reports.dfy ===
/** The read-only queries: CheckLicenseKeyView.get and
    ListLicensesByEmailView.get. Being functions of the store alone, they
    change nothing. */
module Reports {
  import opened Models
  import opened Outcomes
  import opened Query
  import opened Store
  import Activations

  datatype LicenseCheck = LicenseCheck(
    product: string, status: Status, expiresAt: int,
    isActive: bool, isActivated: bool, activeInstances: seq<string>)
  datatype CheckReply = CheckReply(key: string, brand: string, email: string, licenses: seq<LicenseCheck>)
  datatype KeyListing = KeyListing(brand: string, key: string, licenses: seq<LicenseView>)
  datatype ListReply = ListReply(email: string, results: seq<KeyListing>)

  /** The instance ids of the live activations of a license, in id order. */
  function LiveInstances(acts: seq<Activation>, lid: nat): seq<string>
  {
    var ids := Indices(acts, (a: Activation) => a.licenseId == lid && a.revokedAt.None?);
    seq(|ids|, k requires 0 <= k < |ids| => acts[ids[k]].instanceId)
  }

  /** The report of one license. */
  function CheckOf(s: State, lid: nat, now: int): LicenseCheck
    requires lid < |s.licenses|
  {
    var l := s.licenses[lid];
    var insts := LiveInstances(s.activations, lid);
    LicenseCheck(ProductCode(s.products, l.productId), l.status, l.expiresAt,
                 IsActive(l, now), |insts| > 0, insts)
  }

  /** The Check handler. */
  function Check(s: State, key: string, now: int): Result<CheckReply>
  {
    if key == "" then Fail(MissingFields)
    else
      match KeyNamed(s.keys, key)
      case None => Fail(KeyNotFound)
      case Some(kid) =>
        var lids := LicensesOfKey(s.licenses, kid);
        Ok(CheckReply(s.keys[kid].key, BrandName(s.brands, s.keys[kid].brand), s.keys[kid].email,
                      seq(|lids|, k requires 0 <= k < |lids| => CheckOf(s, lids[k], now))))
  }

  /** The keys with a given customer email, whatever their brand, in id order. */
  function KeysOfEmail(keys: seq<LicenseKey>, email: string): seq<nat>
  {
    Indices(keys, (k: LicenseKey) => k.email == email)
  }

  /** The listing of one key: its brand, its string and its licenses. */
  function KeyListingOf(s: State, kid: nat): KeyListing
    requires kid < |s.keys|
  {
    var lids := LicensesOfKey(s.licenses, kid);
    KeyListing(BrandName(s.brands, s.keys[kid].brand), s.keys[kid].key,
               LicenseViews(s.products, seq(|lids|, k requires 0 <= k < |lids| => s.licenses[lids[k]])))
  }

  /** The ListByEmail handler. `caller` is the authenticated brand; the listing
      does not depend on it. */
  function ListByEmail(s: State, caller: nat, email: string): Result<ListReply>
  {
    if email == "" then Fail(MissingFields)
    else
      var kids := KeysOfEmail(s.keys, email);
      Ok(ListReply(email, seq(|kids| , k requires 0 <= k < |kids| => KeyListingOf(s, kids[k]))))
  }

  // ---------------------------------------------------------------------------

  /** The reported instances of a license are exactly those holding a live
      activation of it, each once when activations are unique per
      (license, instance). */
  lemma LiveInstancesExact(acts: seq<Activation>, lid: nat)
    ensures forall x :: x in LiveInstances(acts, lid) <==> LiveFor(acts, lid, x)
    ensures UniqueActivations(acts) ==> Distinct(LiveInstances(acts, lid))
  {
    var ids := Indices(acts, (a: Activation) => a.licenseId == lid && a.revokedAt.None?);
    var xs := LiveInstances(acts, lid);
    forall x | LiveFor(acts, lid, x)
      ensures x in xs
    {
      var i :| 0 <= i < |acts| && acts[i].licenseId == lid && acts[i].instanceId == x && acts[i].revokedAt.None?;
      assert i in ids;
      var k :| 0 <= k < |ids| && ids[k] == i;
      assert xs[k] == x;
    }
    forall x | x in xs
      ensures LiveFor(acts, lid, x)
    {
      var k :| 0 <= k < |xs| && xs[k] == x;
      assert acts[ids[k]].instanceId == x;
    }
    if UniqueActivations(acts) {
      forall a, b | 0 <= a < |xs| && 0 <= b < |xs| && xs[a] == xs[b]
        ensures a == b
      {
        assert acts[ids[a]].licenseId == acts[ids[b]].licenseId;
      }
    }
  }

  /** Check fails with 400 on a blank key and 404 on an unknown one. Otherwise
      it reports every license under the key, in id order, and for each: its
      product, status and expiry; `is_active` exactly when it is valid and
      expires after `now`; `active_instances` exactly the instances with a live
      activation, without repetition; `is_activated` exactly when that list
      is non-empty. */
  lemma CheckReport(s: State, key: string, now: int)
    requires Consistent(s)
    ensures var r := Check(s, key, now);
      && (r == Fail(MissingFields) <==> key == "")
      && (r == Fail(KeyNotFound) <==> key != "" && KeyNamed(s.keys, key).None?)
      && (r.Fail? ==> r.failure in {MissingFields, KeyNotFound})
      && (r.Fail? ==> HttpStatus(r.failure) == if key == "" then 400 else 404)
      && (r.Ok? ==>
            var kid := KeyNamed(s.keys, key).value;
            var lids := LicensesOfKey(s.licenses, kid);
            && r.value.key == key
            && r.value.brand == s.brands[s.keys[kid].brand].name
            && r.value.email == s.keys[kid].email
            && (forall i :: 0 <= i < |s.licenses| && s.licenses[i].keyId == kid ==> i in lids)
            && |r.value.licenses| == |lids|
            && forall j :: 0 <= j < |lids| ==>
                 var l := s.licenses[lids[j]];
                 var c := r.value.licenses[j];
                 && l.keyId == kid
                 && c.product == s.products[l.productId].code
                 && c.status == l.status && c.expiresAt == l.expiresAt
                 && (c.isActive <==> l.status == Valid && l.expiresAt > now)
                 && (forall x :: x in c.activeInstances <==> LiveFor(s.activations, lids[j], x))
                 && Distinct(c.activeInstances)
                 && (c.isActivated <==> c.activeInstances != []))
  {
    if key != "" && KeyNamed(s.keys, key).Some? {
      var kid := KeyNamed(s.keys, key).value;
      var lids := LicensesOfKey(s.licenses, kid);
      forall j | 0 <= j < |lids|
        ensures s.licenses[lids[j]].productId < |s.products|
        ensures forall x :: x in LiveInstances(s.activations, lids[j]) <==> LiveFor(s.activations, lids[j], x)
        ensures Distinct(LiveInstances(s.activations, lids[j]))
      {
        assert LicenseRefs(s, s.licenses[lids[j]]);
        LiveInstancesExact(s.activations, lids[j]);
      }
    }
  }

  /** ListByEmail fails only on a blank email. Otherwise it lists every key
      with that email, of every brand, once each in id order, each with its
      brand's name and all its licenses in id order, each license by its
      product code, status and expiry. */
  lemma ListByEmailReport(s: State, caller: nat, email: string)
    requires Consistent(s)
    ensures var r := ListByEmail(s, caller, email);
      && (r.Fail? <==> email == "")
      && (r.Fail? ==> r == Fail(MissingFields) && HttpStatus(r.failure) == 400)
      && (r.Ok? ==>
            var kids := KeysOfEmail(s.keys, email);
            && r.value.email == email
            && (forall i :: 0 <= i < |s.keys| && s.keys[i].email == email ==> i in kids)
            && |r.value.results| == |kids|
            && forall j :: 0 <= j < |kids| ==>
                 var k := s.keys[kids[j]];
                 var e := r.value.results[j];
                 && k.email == email
                 && e.brand == s.brands[k.brand].name
                 && e.key == k.key
                 && var lids := LicensesOfKey(s.licenses, kids[j]);
                 && (forall i :: 0 <= i < |s.licenses| && s.licenses[i].keyId == kids[j] ==> i in lids)
                 && |e.licenses| == |lids|
                 && forall m :: 0 <= m < |lids| ==>
                      var l := s.licenses[lids[m]];
                      && l.keyId == kids[j]
                      && e.licenses[m] == LicenseView(s.products[l.productId].code, l.status, l.expiresAt))
  {
  }

  // ---------------------------------------------------------------------------
  // Checks after activation and deactivation

  /** After a successful Activate, Check lists the instance among the active
      instances of every active license under the key. */
  lemma ActivateThenCheck(s: State, key: string, inst: string, now: int)
    requires Consistent(s)
    requires Activations.Activate(s, key, inst, now).1.Ok?
    ensures var s1 := Activations.Activate(s, key, inst, now).0;
      var kid := KeyNamed(s.keys, key).value;
      forall lid: nat :: lid < |s.licenses| && s.licenses[lid].keyId == kid && IsActive(s.licenses[lid], now) ==>
        inst in LiveInstances(s1.activations, lid)
  {
    var s1 := Activations.Activate(s, key, inst, now).0;
    Activations.ActivateResult(s, key, inst, now);
    forall lid: nat | lid < |s.licenses| && s.licenses[lid].keyId == KeyNamed(s.keys, key).value && IsActive(s.licenses[lid], now)
      ensures inst in LiveInstances(s1.activations, lid)
    {
      LiveInstancesExact(s1.activations, lid);
    }
  }

  /** After a successful Deactivate of an instance, Check no longer lists it
      among the active instances of that license. */
  lemma DeactivateThenCheck(s: State, key: string, code: string, inst: string, now: int)
    requires Consistent(s)
    requires Activations.Deactivate(s, key, code, inst, now).1.Ok?
    ensures var s1 := Activations.Deactivate(s, key, code, inst, now).0;
      var lid := LicenseForCode(s.licenses, s.products, KeyNamed(s.keys, key).value, code).value;
      inst !in LiveInstances(s1.activations, lid)
  {
    var s1 := Activations.Deactivate(s, key, code, inst, now).0;
    var lid := LicenseForCode(s.licenses, s.products, KeyNamed(s.keys, key).value, code).value;
    Activations.DeactivateIdempotent(s, key, code, inst, now, now);
    assert LiveActivationOf(s1.activations, lid, inst).None?;
    LiveInstancesExact(s1.activations, lid);
  }
}

=== FILE: serializers.dfy ===
/** Request validation for provisioning (licenses/serializers.py): the list of
    product codes must be non-empty, and the brand's products whose code is in
    the list must be exactly as many as the codes given. */
module Serializers {
  import opened Models
  import opened Outcomes
  import opened Query

  /** Whether some product of `brand` has code `c`. */
  ghost predicate BrandHasCode(products: seq<Product>, brand: nat, c: string)
  {
    exists i :: 0 <= i < |products| && products[i].brand == brand && products[i].code == c
  }

  /** The ids, in id order, of the brand's products whose code is in `codes`. */
  function BrandProducts(products: seq<Product>, brand: nat, codes: seq<string>): seq<nat>
  {
    Indices(products, (p: Product) => p.brand == brand && p.code in codes)
  }

  /** The product codes validator: the empty list is refused, and the matching
      products must be as many as the codes; on success they are returned. */
  function ValidateProductCodes(products: seq<Product>, brand: nat, codes: seq<string>): (r: Result<seq<nat>>)
    ensures codes == [] ==> r == Fail(EmptyProductCodes)
    ensures r.Fail? ==> r.failure in {EmptyProductCodes, ProductsNotFound}
    ensures r.Ok? ==> |r.value| == |codes| && Increasing(r.value)
    ensures r.Ok? ==> forall k :: 0 <= k < |r.value| ==>
      r.value[k] < |products| && products[r.value[k]].brand == brand && products[r.value[k]].code in codes
  {
    if |codes| == 0 then Fail(EmptyProductCodes)
    else
      var ids := BrandProducts(products, brand, codes);
      if |ids| != |codes| then Fail(ProductsNotFound) else Ok(ids)
  }

  /** The codes of the products `BrandProducts` selects are exactly the codes of
      the list that name a product of the brand, and no code is selected twice. */
  lemma {:induction false} SelectedCodes(products: seq<Product>, brand: nat, codes: seq<string>)
    requires UniqueProducts(products)
    ensures var ids := BrandProducts(products, brand, codes);
      var cs := seq(|ids|, k requires 0 <= k < |ids| => products[ids[k]].code);
      Distinct(cs) && |cs| == |ids| &&
      Elements(cs) == set c | c in codes && BrandHasCode(products, brand, c)
  {
    var ids := BrandProducts(products, brand, codes);
    var cs := seq(|ids|, k requires 0 <= k < |ids| => products[ids[k]].code);
    SelectedDistinct(products, brand, codes, ids, cs);
    SelectedCover(products, brand, codes, ids, cs);
  }

  /** Products of one brand with distinct ids carry distinct codes. */
  lemma SelectedDistinct(products: seq<Product>, brand: nat, codes: seq<string>, ids: seq<nat>, cs: seq<string>)
    requires UniqueProducts(products)
    requires ids == BrandProducts(products, brand, codes)
    requires |cs| == |ids| && forall k :: 0 <= k < |ids| ==> cs[k] == products[ids[k]].code
    ensures Distinct(cs)
  {
    forall a, b | 0 <= a < |cs| && 0 <= b < |cs| && cs[a] == cs[b]
      ensures a == b
    {
      assert products[ids[a]].brand == products[ids[b]].brand;
    }
  }

  /** The selected codes are the listed codes that name a product of the brand. */
  lemma SelectedCover(products: seq<Product>, brand: nat, codes: seq<string>, ids: seq<nat>, cs: seq<string>)
    requires ids == BrandProducts(products, brand, codes)
    requires |cs| == |ids| && forall k :: 0 <= k < |ids| ==> cs[k] == products[ids[k]].code
    ensures Elements(cs) == set c | c in codes && BrandHasCode(products, brand, c)
  {
    var found := set c | c in codes && BrandHasCode(products, brand, c);
    forall c | c in found
      ensures c in Elements(cs)
    {
      var i :| 0 <= i < |products| && products[i].brand == brand && products[i].code == c;
      assert i in ids;
      var k :| 0 <= k < |ids| && ids[k] == i;
      assert cs[k] == c;
    }
    forall c | c in Elements(cs)
      ensures c in found
    {
      var k :| 0 <= k < |cs| && cs[k] == c;
      assert BrandHasCode(products, brand, c);
    }
  }

  /** With products unique per (brand, code), validation succeeds exactly when
      the list is non-empty, free of repetitions, and every code names a product
      of the calling brand (a code known only under another brand fails). */
  lemma {:induction false} ValidateExact(products: seq<Product>, brand: nat, codes: seq<string>)
    requires UniqueProducts(products)
    ensures ValidateProductCodes(products, brand, codes).Ok? <==>
      codes != [] && Distinct(codes) && forall c :: c in codes ==> BrandHasCode(products, brand, c)
  {
    if codes != [] {
      var ids := BrandProducts(products, brand, codes);
      var cs := seq(|ids|, k requires 0 <= k < |ids| => products[ids[k]].code);
      var found := set c | c in codes && BrandHasCode(products, brand, c);
      SelectedCodes(products, brand, codes);
      ElementsCount(cs);
      ElementsCount(codes);
      assert found <= Elements(codes);
      SubsetSize(found, Elements(codes));
      if |ids| == |codes| {
        SubsetOfEqualSize(found, Elements(codes));
        forall c | c in codes
          ensures BrandHasCode(products, brand, c)
        {
          assert c in Elements(codes);
        }
      }
      if Distinct(codes) && forall c :: c in codes ==> BrandHasCode(products, brand, c) {
        assert found == Elements(codes);
      }
    }
  }

  /** A list that repeats a code is refused, whatever the products. */
  lemma RepeatedCodeRejected(products: seq<Product>, brand: nat, codes: seq<string>, i: nat, j: nat)
    requires UniqueProducts(products)
    requires i < j < |codes| && codes[i] == codes[j]
    ensures ValidateProductCodes(products, brand, codes) == Fail(ProductsNotFound)
  {
    ValidateExact(products, brand, codes);
  }

  /** A code that names no product of the calling brand makes the whole list fail. */
  lemma ForeignCodeRejected(products: seq<Product>, brand: nat, codes: seq<string>, c: string)
    requires UniqueProducts(products)
    requires c in codes && !BrandHasCode(products, brand, c)
    ensures ValidateProductCodes(products, brand, codes) == Fail(ProductsNotFound)
  {
    ValidateExact(products, brand, codes);
  }
}

=== FILE: store.dfy ===
/** The store the handlers run against: one table per record kind, the
    consistency invariant the handlers keep, and the lookups they make. */
module Store {
  import opened Models
  import opened Query

  datatype State = State(
    brands: seq<Brand>,
    products: seq<Product>,
    keys: seq<LicenseKey>,
    licenses: seq<License>,
    activations: seq<Activation>)

  /** One LicenseKey per (brand, customer_email). No storage constraint says
      so; it holds because every key is made by Provision's find-or-create. */
  ghost predicate UniqueKeyOwners(keys: seq<LicenseKey>)
  {
    forall i, j | 0 <= i < |keys| && 0 <= j < |keys| && keys[i].brand == keys[j].brand && keys[i].email == keys[j].email :: i == j
  }

  /** LicenseKey.key is a unique column. */
  ghost predicate UniqueKeyStrings(keys: seq<LicenseKey>)
  {
    forall i, j | 0 <= i < |keys| && 0 <= j < |keys| && keys[i].key == keys[j].key :: i == j
  }

  /** One License per (license_key, product). As for keys, this holds only
      because Provision finds before it creates. */
  ghost predicate UniqueLicenses(ls: seq<License>)
  {
    forall i, j | 0 <= i < |ls| && 0 <= j < |ls| && ls[i].keyId == ls[j].keyId && ls[i].productId == ls[j].productId :: i == j
  }

  /** A license refers to an existing key and to an existing product of that key's brand. */
  ghost predicate LicenseRefs(s: State, l: License)
  {
    l.keyId < |s.keys| && l.productId < |s.products| &&
    s.products[l.productId].brand == s.keys[l.keyId].brand
  }

  /** Brands and products, which only administrators create: products refer to
      existing brands and are unique per (brand, code). */
  ghost predicate Catalogue(brands: seq<Brand>, products: seq<Product>)
  {
    (forall i | 0 <= i < |products| :: products[i].brand < |brands|) &&
    UniqueProducts(products)
  }

  /** The invariant every handler preserves. */
  ghost predicate Consistent(s: State)
  {
    && Catalogue(s.brands, s.products)
    && (forall i | 0 <= i < |s.keys| :: s.keys[i].brand < |s.brands| && HasPrefix(s.keys[i].key, LicenseKeyPrefix))
    && UniqueKeyOwners(s.keys)
    && UniqueKeyStrings(s.keys)
    && (forall i | 0 <= i < |s.licenses| :: LicenseRefs(s, s.licenses[i]))
    && UniqueLicenses(s.licenses)
    && (forall i | 0 <= i < |s.activations| :: s.activations[i].licenseId < |s.licenses|)
    && UniqueActivations(s.activations)
  }

  /** What the handlers report of one license. */
  datatype LicenseView = LicenseView(product: string, status: Status, expiresAt: int)

  /** The report of each license of `out`, in order. */
  function LicenseViews(products: seq<Product>, out: seq<License>): (r: seq<LicenseView>)
    ensures |r| == |out|
    ensures forall k :: 0 <= k < |out| ==>
      && r[k].product == ProductCode(products, out[k].productId)
      && r[k].status == out[k].status && r[k].expiresAt == out[k].expiresAt
  {
    seq(|out|, k requires 0 <= k < |out| => LicenseView(ProductCode(products, out[k].productId), out[k].status, out[k].expiresAt))
  }

  /** A live activation of `lid` for `inst` exists. */
  ghost predicate LiveFor(acts: seq<Activation>, lid: nat, inst: string)
  {
    exists i :: 0 <= i < |acts| && acts[i].licenseId == lid && acts[i].instanceId == inst && acts[i].revokedAt.None?
  }

  // Lookups, each the `filter(...).first()` of the source.

  function KeyNamed(keys: seq<LicenseKey>, key: string): Option<nat>
  {
    First(keys, (k: LicenseKey) => k.key == key)
  }

  function KeyOfOwner(keys: seq<LicenseKey>, brand: nat, email: string): Option<nat>
  {
    First(keys, (k: LicenseKey) => k.brand == brand && k.email == email)
  }

  function KeyOfBrand(keys: seq<LicenseKey>, key: string, brand: nat): Option<nat>
  {
    First(keys, (k: LicenseKey) => k.key == key && k.brand == brand)
  }

  function LicenseOf(ls: seq<License>, kid: nat, pid: nat): Option<nat>
  {
    First(ls, (l: License) => l.keyId == kid && l.productId == pid)
  }

  function LicenseForCode(ls: seq<License>, products: seq<Product>, kid: nat, code: string): Option<nat>
  {
    First(ls, (l: License) => l.keyId == kid && l.productId < |products| && products[l.productId].code == code)
  }

  function ActivationOf(acts: seq<Activation>, lid: nat, inst: string): Option<nat>
  {
    First(acts, (a: Activation) => a.licenseId == lid && a.instanceId == inst)
  }

  function LiveActivationOf(acts: seq<Activation>, lid: nat, inst: string): Option<nat>
  {
    First(acts, (a: Activation) => a.licenseId == lid && a.instanceId == inst && a.revokedAt.None?)
  }

  /** The licenses under a key, in id order (`lk.licenses.all()`). */
  function LicensesOfKey(ls: seq<License>, kid: nat): seq<nat>
  {
    Indices(ls, (l: License) => l.keyId == kid)
  }

  /** The code of a product, or "" for an id outside the table. */
  function ProductCode(products: seq<Product>, pid: nat): string
  {
    if pid < |products| then products[pid].code else ""
  }

  function BrandName(brands: seq<Brand>, b: nat): string
  {
    if b < |brands| then brands[b].name else ""
  }

  /** Under the invariant the activation for (license, instance) is the only
      row with that pair, so its lookup names it exactly. */
  lemma ActivationOfUnique(acts: seq<Activation>, lid: nat, inst: string, i: nat)
    requires UniqueActivations(acts)
    requires i < |acts| && acts[i].licenseId == lid && acts[i].instanceId == inst
    ensures ActivationOf(acts, lid, inst) == Some(i)
  {
    FirstOfUnique(acts, (a: Activation) => a.licenseId == lid && a.instanceId == inst, i);
  }

  lemma LicenseOfUnique(ls: seq<License>, kid: nat, pid: nat, i: nat)
    requires UniqueLicenses(ls)
    requires i < |ls| && ls[i].keyId == kid && ls[i].productId == pid
    ensures LicenseOf(ls, kid, pid) == Some(i)
  {
    FirstOfUnique(ls, (l: License) => l.keyId == kid && l.productId == pid, i);
  }

  /** In a consistent store, a key string names at most one key, and
      looking it up scoped to a brand finds it exactly when it is that brand's. */
  lemma KeyOfBrandScoped(s: State, key: string, brand: nat)
    requires Consistent(s)
    ensures KeyOfBrand(s.keys, key, brand) ==
      match KeyNamed(s.keys, key)
      case Some(k) => if s.keys[k].brand == brand then Some(k) else None
      case None => None
  {
    var named := KeyNamed(s.keys, key);
    if named.Some? && s.keys[named.value].brand == brand {
      FirstOfUnique(s.keys, (k: LicenseKey) => k.key == key && k.brand == brand, named.value);
    }
  }

  /** Rewriting one license in place, keeping its key and product, keeps the
      store consistent. */
  lemma LicenseUpdateConsistent(s: State, lid: nat, l: License)
    requires Consistent(s) && lid < |s.licenses|
    requires l.keyId == s.licenses[lid].keyId && l.productId == s.licenses[lid].productId
    ensures Consistent(s.(licenses := s.licenses[lid := l]))
  {
    var s' := s.(licenses := s.licenses[lid := l]);
    forall i | 0 <= i < |s'.licenses|
      ensures LicenseRefs(s', s'.licenses[i])
    {
      assert LicenseRefs(s, s.licenses[i]);
    }
    forall i, j | 0 <= i < |s'.licenses| && 0 <= j < |s'.licenses| &&
      s'.licenses[i].keyId == s'.licenses[j].keyId && s'.licenses[i].productId == s'.licenses[j].productId
      ensures i == j
    {
      assert s.licenses[i].keyId == s'.licenses[i].keyId && s.licenses[i].productId == s'.licenses[i].productId;
      assert s.licenses[j].keyId == s'.licenses[j].keyId && s.licenses[j].productId == s'.licenses[j].productId;
    }
  }
}

=== FILE: views.dfy ===
/** The request handlers of licenses/views.py as methods of one service object
    that owns the tables and updates them in place. Each method runs the
    handler's own loop and is proved to leave the tables, and to answer,
    exactly as the matching handler function says; the properties of those
    functions are proved in their own modules. */
module Views {
  import opened Models
  import opened Outcomes
  import opened Query
  import opened Store
  import Serializers
  import Provisioning
  import Activations
  import Reports
  import LifecycleSpec = Lifecycle

  class LicenseService {
    var brands: seq<Brand>
    var products: seq<Product>
    var keys: seq<LicenseKey>
    var licenses: seq<License>
    var activations: seq<Activation>

    /** The tables as one value, for the handler functions. */
    ghost function Tables(): State
      reads this
    {
      State(brands, products, keys, licenses, activations)
    }

    ghost predicate Invariant()
      reads this
    {
      Consistent(Tables())
    }

    /** A service over a catalogue of brands and products, with no keys,
        licenses or activations yet. */
    constructor (brands: seq<Brand>, products: seq<Product>)
      requires Catalogue(brands, products)
      ensures Invariant()
      ensures Tables() == State(brands, products, [], [], [])
    {
      this.brands := brands;
      this.products := products;
      keys := [];
      licenses := [];
      activations := [];
    }

    /** `LicenseKey.objects.get_or_create(brand, customer_email)`, with a
        generated key string as the default for a new row: the id of the key,
        or the storage error when that string is already taken. */
    method GetOrCreateKey(brand: nat, email: string, now: int, token: string) returns (r: Result<nat>)
      modifies this
      ensures brands == old(brands) && products == old(products)
      ensures licenses == old(licenses) && activations == old(activations)
      ensures r.Ok? ==> Provisioning.GetOrCreateKey(old(Tables()), brand, email, now, token) == Ok((Tables(), r.value))
      ensures r.Fail? ==> Provisioning.GetOrCreateKey(old(Tables()), brand, email, now, token) == Fail(r.failure)
      ensures r.Fail? ==> keys == old(keys)
    {
      var owned := KeyOfOwner(keys, brand, email);
      if owned.Some? {
        return Ok(owned.value);
      }
      var key := GenerateKey(token);
      if KeyNamed(keys, key).Some? {
        return Fail(KeyCollision);
      }
      r := Ok(|keys|);
      keys := keys + [LicenseKey(brand, email, key, now)];
    }

    /** The provisioning loop: `License.objects.get_or_create(license_key,
        product)` for each validated product, collecting the licenses. */
    method ProvisionLicenses(kid: nat, pids: seq<nat>, now: int) returns (out: seq<License>)
      modifies this
      ensures brands == old(brands) && products == old(products)
      ensures keys == old(keys) && activations == old(activations)
      ensures (licenses, out) == Provisioning.ProvisionLicenses(old(licenses), kid, pids, now)
    {
      out := [];
      var i := 0;
      while i < |pids|
        invariant 0 <= i <= |pids|
        invariant brands == old(brands) && products == old(products)
        invariant keys == old(keys) && activations == old(activations)
        invariant (licenses, out) == Provisioning.ProvisionLicenses(old(licenses), kid, pids[..i], now)
      {
        assert pids[..i + 1][..i] == pids[..i];
        var found := LicenseOf(licenses, kid, pids[i]);
        var lic: License;
        if found.Some? {
          lic := licenses[found.value];
        } else {
          lic := Provisioning.NewLicense(kid, pids[i], now);
          licenses := licenses + [lic];
        }
        out := out + [lic];
        i := i + 1;
      }
      assert pids[..i] == pids;
    }

    /** ProvisionLicenseView.post for the authenticated brand `brand`. */
    method Provision(brand: nat, email: string, codes: seq<string>, now: int, token: string)
      returns (r: Result<Provisioning.ProvisionReply>)
      requires Invariant() && brand < |brands|
      modifies this
      ensures Invariant()
      ensures (Tables(), r) == Provisioning.Provision(old(Tables()), brand, email, codes, now, token)
    {
      Provisioning.ProvisionConsistent(Tables(), brand, email, codes, now, token);
      if email == "" {
        return Fail(InvalidEmail);
      }
      var checked := Serializers.ValidateProductCodes(products, brand, codes);
      if checked.Fail? {
        return Fail(checked.failure);
      }
      var owned := GetOrCreateKey(brand, email, now, token);
      if owned.Fail? {
        return Fail(owned.failure);
      }
      var kid := owned.value;
      var out := ProvisionLicenses(kid, checked.value, now);
      r := Ok(Provisioning.ProvisionReply(keys[kid].key, BrandName(brands, brand), keys[kid].email, LicenseViews(products, out)));
    }

    /** One step of the activation loop: `Activation.objects.get_or_create(
        license, instance_id)`, then clearing a revocation the row carries. */
    method ActivateOne(lid: nat, inst: string, now: int)
      modifies this
      ensures brands == old(brands) && products == old(products)
      ensures keys == old(keys) && licenses == old(licenses)
      ensures activations == Activations.ActivateOne(old(activations), lid, inst, now)
    {
      var found := ActivationOf(activations, lid, inst);
      if found.None? {
        activations := activations + [Activation(lid, inst, now, None)];
      } else if activations[found.value].revokedAt.Some? {
        activations := activations[found.value := activations[found.value].(revokedAt := None)];
      }
    }

    /** The activation loop over the active licenses, collecting the reply. */
    method ActivateAll(lids: seq<nat>, inst: string, now: int) returns (activated: seq<Activations.ActivationView>)
      modifies this
      ensures brands == old(brands) && products == old(products)
      ensures keys == old(keys) && licenses == old(licenses)
      ensures activations == Activations.ActivateAll(old(activations), lids, inst, now)
      ensures activated == Activations.ActivatedViews(old(Tables()), lids, inst)
    {
      activated := [];
      var i := 0;
      while i < |lids|
        invariant 0 <= i <= |lids|
        invariant brands == old(brands) && products == old(products)
        invariant keys == old(keys) && licenses == old(licenses)
        invariant activations == Activations.ActivateAll(old(activations), lids[..i], inst, now)
        invariant |activated| == i
        invariant forall k :: 0 <= k < i ==> activated[k] == Activations.ActivatedViews(old(Tables()), lids, inst)[k]
      {
        assert lids[..i + 1][..i] == lids[..i];
        ActivateOne(lids[i], inst, now);
        var code := if lids[i] < |licenses| then ProductCode(products, licenses[lids[i]].productId) else "";
        activated := activated + [Activations.ActivationView(code, inst)];
        i := i + 1;
      }
      assert lids[..i] == lids;
    }

    /** ActivateLicenseView.post. */
    method Activate(key: string, inst: string, now: int) returns (r: Result<Activations.ActivateReply>)
      requires Invariant()
      modifies this
      ensures Invariant()
      ensures (Tables(), r) == Activations.Activate(old(Tables()), key, inst, now)
    {
      Activations.ActivateConsistent(Tables(), key, inst, now);
      if key == "" || inst == "" {
        return Fail(MissingFields);
      }
      var named := KeyNamed(keys, key);
      if named.None? {
        return Fail(KeyNotFound);
      }
      var kid := named.value;
      var lids := Activations.ActiveLicensesOfKey(licenses, kid, now);
      if lids == [] {
        return Fail(NoActiveLicenses);
      }
      var activated := ActivateAll(lids, inst, now);
      r := Ok(Activations.ActivateReply(keys[kid].key, keys[kid].email, activated));
    }

    /** DeactivateLicenseView.post: revokes the live activation, as
        Activation.revoke does, when there is one. */
    method Deactivate(key: string, code: string, inst: string, now: int) returns (r: Result<Activations.DeactivateReply>)
      requires Invariant()
      modifies this
      ensures Invariant()
      ensures (Tables(), r) == Activations.Deactivate(old(Tables()), key, code, inst, now)
    {
      Activations.DeactivateConsistent(Tables(), key, code, inst, now);
      if key == "" || code == "" || inst == "" {
        return Fail(MissingFields);
      }
      var named := KeyNamed(keys, key);
      if named.None? {
        return Fail(KeyNotFound);
      }
      var kid := named.value;
      var held := LicenseForCode(licenses, products, kid, code);
      if held.None? {
        return Fail(LicenseNotFound);
      }
      var live := LiveActivationOf(activations, held.value, inst);
      if live.None? {
        return Ok(Activations.DeactivateReply(keys[kid].key, code, inst, false, None));
      }
      activations := activations[live.value := Revoke(activations[live.value], now)];
      r := Ok(Activations.DeactivateReply(keys[kid].key, code, inst, true, Some(now)));
    }

    /** CheckLicenseKeyView.get: reads the tables and changes nothing. */
    method Check(key: string, now: int) returns (r: Result<Reports.CheckReply>)
      ensures r == Reports.Check(Tables(), key, now)
    {
      if key == "" {
        return Fail(MissingFields);
      }
      var named := KeyNamed(keys, key);
      if named.None? {
        return Fail(KeyNotFound);
      }
      var kid := named.value;
      var lids := LicensesOfKey(licenses, kid);
      ghost var s := Tables();
      var out: seq<Reports.LicenseCheck> := [];
      var i := 0;
      while i < |lids|
        invariant 0 <= i <= |lids|
        invariant |out| == i
        invariant forall k :: 0 <= k < i ==> out[k] == Reports.CheckOf(s, lids[k], now)
      {
        var lic := licenses[lids[i]];
        var insts := Reports.LiveInstances(activations, lids[i]);
        var report := Reports.LicenseCheck(ProductCode(products, lic.productId), lic.status, lic.expiresAt,
                                           IsActive(lic, now), |insts| > 0, insts);
        assert report == Reports.CheckOf(s, lids[i], now);
        out := out + [report];
        i := i + 1;
      }
      assert out == seq(|lids|, k requires 0 <= k < |lids| => Reports.CheckOf(s, lids[k], now));
      r := Ok(Reports.CheckReply(keys[kid].key, BrandName(brands, keys[kid].brand), keys[kid].email, out));
    }

    /** ListLicensesByEmailView.get for the authenticated brand `caller`: reads
        the tables and changes nothing. */
    method ListByEmail(caller: nat, email: string) returns (r: Result<Reports.ListReply>)
      ensures r == Reports.ListByEmail(Tables(), caller, email)
    {
      if email == "" {
        return Fail(MissingFields);
      }
      var kids := Reports.KeysOfEmail(keys, email);
      ghost var s := Tables();
      var out: seq<Reports.KeyListing> := [];
      var i := 0;
      while i < |kids|
        invariant 0 <= i <= |kids|
        invariant |out| == i
        invariant forall k :: 0 <= k < i ==> out[k] == Reports.KeyListingOf(s, kids[k])
      {
        var kid := kids[i];
        var lids := LicensesOfKey(licenses, kid);
        var ls := licenses;
        var held := seq(|lids|, k requires 0 <= k < |lids| => ls[lids[k]]);
        out := out + [Reports.KeyListing(BrandName(brands, keys[kid].brand), keys[kid].key, LicenseViews(products, held))];
        i := i + 1;
      }
      assert out == seq(|kids|, k requires 0 <= k < |kids| => Reports.KeyListingOf(s, kids[k]));
      r := Ok(Reports.ListReply(email, out));
    }

    /** The action branch of the lifecycle handler on license `lid`: the
        license it leaves, or the failure it answers with. */
    method ApplyAction(lid: nat, act: string, extend: LifecycleSpec.ExtendDays, now: int) returns (r: Result<License>)
      requires lid < |licenses|
      modifies this
      ensures brands == old(brands) && products == old(products)
      ensures keys == old(keys) && activations == old(activations)
      ensures r == LifecycleSpec.Transition(old(licenses)[lid], act, extend, now)
      ensures licenses == if r.Ok? then old(licenses)[lid := r.value] else old(licenses)
    {
      var lic := licenses[lid];
      if act == "suspend" {
        lic := lic.(status := Suspended);
      } else if act == "resume" {
        if lic.status != Cancelled {
          lic := lic.(status := Valid);
        }
      } else if act == "cancel" {
        lic := lic.(status := Cancelled);
      } else if act == "renew" {
        var days: int;
        match extend {
          case NotAnInteger => return Fail(InvalidExtendDays);
          case Absent => days := DefaultTermDays;
          case Days(n) => days := n;
        }
        if days < -MaxDeltaDays || MaxDeltaDays < days {
          return Fail(ExpiryOutOfRange);
        }
        var base := if lic.expiresAt > now then lic.expiresAt else now;
        var expiry := base + days * Day;
        if expiry < MinInstant || MaxInstant < expiry {
          return Fail(ExpiryOutOfRange);
        }
        lic := lic.(status := Valid, expiresAt := expiry);
      } else {
        return Fail(UnknownAction);
      }
      licenses := licenses[lid := lic];
      r := Ok(lic);
    }

    /** LicenseLifecycleView.post for the authenticated brand `brand`. */
    method Lifecycle(brand: nat, key: string, code: string, action: string, extend: LifecycleSpec.ExtendDays, now: int)
      returns (r: Result<LifecycleSpec.LifecycleReply>)
      requires Invariant()
      modifies this
      ensures Invariant()
      ensures (Tables(), r) == LifecycleSpec.Lifecycle(old(Tables()), brand, key, code, action, extend, now)
    {
      LifecycleSpec.LifecycleConsistent(Tables(), brand, key, code, action, extend, now);
      if key == "" || code == "" || action == "" {
        return Fail(MissingFields);
      }
      var owned := KeyOfBrand(keys, key, brand);
      if owned.None? {
        return Fail(KeyNotFound);
      }
      var kid := owned.value;
      var held := LicenseForCode(licenses, products, kid, code);
      if held.None? {
        return Fail(LicenseNotFound);
      }
      var lid := held.value;
      var changed := ApplyAction(lid, LifecycleSpec.NormalizeAction(action), extend, now);
      if changed.Fail? {
        return Fail(changed.failure);
      }
      var lic := licenses[lid];
      r := Ok(LifecycleSpec.LifecycleReply(keys[kid].key, BrandName(brands, brand), ProductCode(products, lic.productId), lic.status, lic.expiresAt));
    }
  }
}
